=== FILE: README.md ===
# GenLab execution core: a Dafny model

This project models the core of GenLab's workflow execution engine and proves properties about it. The core is the part that aggregates the state of a *container* task from its children and passes values from iteration branches to a *reduce* algorithm. Three small self-contained classes from the same code base are modelled alongside it: the attribute-value holder of populations, the user/developer text message, and the label registry and outcome logic of the multi-objective verification functions.

Every Java method is modelled as a pure function over immutable datatypes:

- A child task is a snapshot of its progress object: owner, state, done and total (`Computation.Progress`).
- A container is a record holding its children, its carried-over counters for cleaned children, its sticky failure/cancel flags, its four configuration switches and its own progress (`ContainerExecution.Container`).
- Calls made on other objects are returned as an ordered event list next to the new state. These include listener subscription, runner registration, the finished hook, kill/cancel forwarding, rank propagation, value delivery and consumer cancellation.
- Exceptions are `Result.Err` values carrying the exception kind.

Modules:

| module | file | models |
|---|---|---|
| `Computation` | computation.dfy | `ComputationState` with its `isFinished` predicate, progress snapshots, null (`Option`) and exceptions (`Result`, `Failure`) |
| `ContainerExecution` | container.dfy | `AbstractContainerExecution`: review of children, state notifications, cleaning, registration, kill/cancel, getters |
| `ContainerProperties` | container_properties.dfy | properties relating the container's transitions to its children and to each other |
| `ContainerInit` | container_init.dfy | `initCreateExecutionsForSubAlgos`, `initPropagateRanks` |
| `IterationToReduce` | reduce_connection.dfy | `ConnectionExecFromIterationToReduce` |
| `AttributesHolder` | attributes_holder.dfy | `AttributesHolderInstance` |
| `TextMessages` | text_message.dfy | `TextMessage` |
| `VerificationFunctions` | verification_functions.dfy | `VerificationFunctionsAlgo.EAvailableFunctions` and the anonymous execution's `run`/`kill`/`cancel`/`getTimeout` |

Behaviour of the code worth knowing, which the model follows:

- `addTask` has no guard against adding children once the container has started finishing. The model accepts the child at any time, as the code does.
- With auto-update off and auto-finish on, a review finishes the container even while some children are unfinished. The code's `else if` is reached in that case.
- Cleaning a finished child replaces its contribution of 1 to `totalDone` by its done-count, and replaces its `total + 1` in `totalToDo` by its done-count. Aggregate progress therefore keeps its level only when the cleaned child reported at least one unit done (`ContainerProperties.CleaningAccounting`).
- Nothing guards the container's own state. Every later review that reaches the auto-finish branch runs the finished hook again and sets the terminal state again, so a container can finish more than once and can move from FINISHED_OK to FINISHED_FAILURE (`ContainerProperties.RepeatedFailureFinishesAgain`, `ContainerProperties.OkThenFailingSiblingFinishesTwice`).
- The iteration-to-reduce connection cancels the whole consumer when one branch fails or is cancelled. There is no per-branch policy.

## Model

| member | source | states |
|---|---|---|
| ContainerExecution.NewContainer | genlab.core/src/genlab/core/model/exec/AbstractContainerExecution.java:36-85 | a new container has no children, zeroed removal counters, no sticky flag, is not canceled, auto-finish and auto-update on, and ignores neither failures nor cancels |
| ContainerExecution.FirstIndex | genlab.core/src/genlab/core/model/exec/AbstractContainerExecution.java:229 | the position `LinkedList.remove` acts on: a child that is the task, with no earlier child being it |
| ContainerExecution.RemoveChild | genlab.core/src/genlab/core/model/exec/AbstractContainerExecution.java:229 | `tasks.remove(task)` takes out the first child that is the task and keeps the others in order; an absent task leaves the list as it was |
| ContainerExecution.RemoveChildDropsOne | genlab.core/src/genlab/core/model/exec/AbstractContainerExecution.java:229 | `tasks.remove(task)` takes out exactly one element, the first child that is the task, and leaves the multiset of children unchanged when the task is absent |
| ContainerExecution.ScanChildren | genlab.core/src/genlab/core/model/exec/AbstractContainerExecution.java:128-164 | the review loop computes totalToDo = removedDone + Σ(total_i + 1) and totalDone = removedDone + Σ(finished_i ? 1 : done_i), and it raises the sticky flags exactly when some child failed or was cancelled |
| ContainerExecution.Classify | genlab.core/src/genlab/core/model/exec/AbstractContainerExecution.java:180-190 | the container's terminal state is FINISHED_FAILURE iff something failed and failures are not ignored, FINISHED_CANCEL iff not that and something was cancelled and cancels are not ignored, and FINISHED_OK iff each of the two is absent or ignored |
| ContainerExecution.UpdateProgressFromChildren | genlab.core/src/genlab/core/model/exec/AbstractContainerExecution.java:121-198 | with both switches off nothing changes; otherwise the sticky flags become exactly what the scan of the children found (never lowering them), only they and the container's own progress can change, and with auto-finish off outside the counter update the progress is left alone; at most one call is made, the finished hook, which observes the container's previous state and is followed by the terminal state it was given |
| ContainerExecution.ComputationStateChanged | genlab.core/src/genlab/core/model/exec/AbstractContainerExecution.java:95-119 | the notifying child's snapshot becomes the notified progress, since the progress object is shared; a state that is not finished, or a progress that is not a current child's, then changes nothing more and makes no call; any other notification triggers a review of the refreshed children |
| ContainerExecution.Refresh | genlab.core/src/genlab/core/model/exec/AbstractContainerExecution.java:95-105 | every snapshot owned by the notifying task becomes the notified progress, the others are kept, and the set of children is unchanged |
| ContainerExecution.TaskCleaning | genlab.core/src/genlab/core/model/exec/AbstractContainerExecution.java:209-231 | cleaning an unfinished task raises ProgramException; cleaning a finished one counts it as removed, adds its done-count, records a failure/cancel in the sticky flags, removes that task from the children and changes nothing else |
| ContainerExecution.AddTask | genlab.core/src/genlab/core/model/exec/AbstractContainerExecution.java:234-252 | the task is a child afterwards; a known task changes nothing; a new one is appended, subscribed to (detailed updates only with auto-update on), and handed to the runner exactly when the runner already holds the container; children stay distinct; a new task is subscribed to first and handed to the runner last, each call made once |
| ContainerExecution.KillCalls | genlab.core/src/genlab/core/model/exec/AbstractContainerExecution.java:259-268 | kill is called once on every child, in the children's order; a child whose kill throws is logged and the loop goes on |
| ContainerExecution.CancelCalls | genlab.core/src/genlab/core/model/exec/AbstractContainerExecution.java:275-285 | cancel is called once on each unfinished child, in the children's order, and on no other; a child whose cancel throws is logged and the loop goes on |
| ContainerExecution.Kill | genlab.core/src/genlab/core/model/exec/AbstractContainerExecution.java:255-269 | kill sets canceled, changes nothing else, and reaches every child once, in order |
| ContainerExecution.Cancel | genlab.core/src/genlab/core/model/exec/AbstractContainerExecution.java:271-286 | cancel sets canceled, changes nothing else, and reaches exactly the unfinished children, once each, in order |
| ContainerExecution.GetTasks | genlab.core/src/genlab/core/model/exec/AbstractContainerExecution.java:290-294 | the returned copy holds the current children in order |
| ContainerExecution.GetTimeout | genlab.core/src/genlab/core/model/exec/AbstractContainerExecution.java:296-300 | a container's timeout is -1, the value that disables the watchdog |
| ContainerProperties.DoneSumAtMostToDoSum | genlab.core/src/genlab/core/model/exec/AbstractContainerExecution.java:139-147 | over children reporting 0 <= done <= total, the summed done shares never exceed the summed to-do shares |
| ContainerProperties.TotalDoneAtMostTotalToDo | genlab.core/src/genlab/core/model/exec/AbstractContainerExecution.java:129-148 | given 0 <= done_i <= total_i for every child, the aggregate totalDone <= totalToDo |
| ContainerProperties.UpdateWhileChildrenRun | genlab.core/src/genlab/core/model/exec/AbstractContainerExecution.java:167-173 | with auto-update on, a child unfinished and no sticky flag after the review, only the container's total/made are written; its state is unchanged and no hook runs |
| ContainerProperties.UpdateFinishes | genlab.core/src/genlab/core/model/exec/AbstractContainerExecution.java:175-196 | otherwise, with auto-finish on, the hook runs with FINISHED_FAILURE if something failed and failures are not ignored, else FINISHED_CANCEL if something was cancelled and cancels are not ignored, else FINISHED_OK; that state then becomes the container's, with its counters untouched |
| ContainerProperties.FailedChildForcesFailure | genlab.core/src/genlab/core/model/exec/AbstractContainerExecution.java:150-182 | a failed child, with failures not ignored, makes the review end the container in FINISHED_FAILURE, even while siblings are unfinished |
| ContainerProperties.NotifiedFailureEndsContainer | genlab.core/src/genlab/core/model/exec/AbstractContainerExecution.java:95-111 | a FINISHED_FAILURE notification from a child, with auto-finish on and failures not ignored, ends the container FINISHED_FAILURE with one hook call, whatever the container had seen of that child before |
| ContainerProperties.RepeatedFailureFinishesAgain | genlab.core/src/genlab/core/model/exec/AbstractContainerExecution.java:95-111 | once a failure is remembered, every later finished-child notification runs the hook again with FINISHED_FAILURE and sets that state again, even on a container already FINISHED_FAILURE |
| ContainerProperties.AutoFinishAloneEndsOnEveryNotification | genlab.core/src/genlab/core/model/exec/AbstractContainerExecution.java:121-195 | with auto-update off and auto-finish on, every finished-child notification ends the container with the classified state and runs the hook, even while siblings still run |
| ContainerProperties.OkThenFailingSiblingFinishesTwice | genlab.core/src/genlab/core/model/exec/AbstractContainerExecution.java:95-195 | with auto-update off, one child finishing OK ends the container FINISHED_OK while its sibling runs; the sibling failing later ends it again as FINISHED_FAILURE, and the hook runs twice |
| ContainerProperties.ContainerOkIffChildrenOk | genlab.core/src/genlab/core/model/exec/AbstractContainerExecution.java:175-190 | once all children have finished and neither sticky flag is set (from a cleaned child or an earlier review), the container ends FINISHED_OK iff every child finished OK or in a way the configuration ignores |
| ContainerProperties.StrictContainerOkIffAllChildrenOk | genlab.core/src/genlab/core/model/exec/AbstractContainerExecution.java:175-190 | with neither ignore flag, the container ends FINISHED_OK iff every child finished OK |
| ContainerProperties.AddTaskIdempotent | genlab.core/src/genlab/core/model/exec/AbstractContainerExecution.java:237-249 | adding a task a second time changes nothing and makes no call, whatever the runner holds |
| ContainerProperties.RemoveChildExact | genlab.core/src/genlab/core/model/exec/AbstractContainerExecution.java:229 | among distinct children, removing a present task leaves one fewer child, not the task, every other child, and distinct children |
| ContainerProperties.CleaningRemovesExactlyThatChild | genlab.core/src/genlab/core/model/exec/AbstractContainerExecution.java:226-229 | with distinct children, cleaning removes exactly the cleaned child: one fewer child, every other child kept, children still distinct |
| ContainerProperties.CleaningAccounting | genlab.core/src/genlab/core/model/exec/AbstractContainerExecution.java:226-229 | after cleaning a child, totalDone changes by (done - 1) and totalToDo by (done - total - 1) |
| ContainerProperties.CleanedFailureStillFails | genlab.core/src/genlab/core/model/exec/AbstractContainerExecution.java:219-221 | a failed child that was cleaned still makes the container's next review end in FINISHED_FAILURE |
| ContainerProperties.CancelLeavesFinishedAlone | genlab.core/src/genlab/core/model/exec/AbstractContainerExecution.java:277-283 | cancel never reaches a finished child, while kill does |
| ContainerInit.InitCreateExecutionsForSubAlgos | genlab.core/src/genlab/core/model/exec/AbstractContainerExecution.java:354-383 | instances inside another container are skipped and disabled ones are warned about; every other instance's execution is created and mapped; the call raises ProgramException iff one of them yields no execution |
| ContainerInit.InitPropagateRanks | genlab.core/src/genlab/core/model/exec/AbstractContainerExecution.java:509-525 | propagation starts with rank 1 and an empty visited set, from exactly the executions of instances that have no incoming connection and have an execution |
| ContainerInit.InitPropagateRanksAppend | genlab.core/src/genlab/core/model/exec/AbstractContainerExecution.java:509-525 | the seeding calls follow the order of the instances: those for a list are the calls for its first part followed by those for the rest |
| IterationToReduce.ComputationStateChanged | genlab.core/src/genlab/core/model/exec/ConnectionExecFromIterationToReduce.java:41-83 | a foreign progress is ignored. A cancelled/failed producer clears the value and cancels the consumer. Any other unfinished state clears the value only. On FINISHED_OK the value becomes the producer's result for the source output and is delivered exactly once, tagged with the producer's parent, with a null value reported. ProgramException arises iff an OK producer publishes no result |
| IterationToReduce.ForceValue | genlab.core/src/genlab/core/model/exec/ConnectionExecFromIterationToReduce.java:89-94 | forcing a value always raises NotImplementedException |
| IterationToReduce.PropagateRank | genlab.core/src/genlab/core/model/exec/ConnectionExecFromIterationToReduce.java:96-99 | no rank is forwarded through this connection |
| IterationToReduce.ReduceReceivesOnePerSuccessfulBranch | genlab.core/src/genlab/core/model/exec/ConnectionExecFromIterationToReduce.java:50-80 | over all branches, the reduce consumer gets one delivery per branch that finished OK and one cancel per branch that failed or was cancelled |
| AttributesHolder.NewWithValues | genlab.populations/src/genlab/populations/implementations/basic/AttributesHolderInstance.java:18-26 | the value-array constructor accepts the values iff their count is the attribute count, keeping them as the instance's slots, and raises ProgramException otherwise |
| AttributesHolder.New | genlab.populations/src/genlab/populations/implementations/basic/AttributesHolderInstance.java:28-32 | the default constructor allocates exactly one null slot per attribute |
| AttributesHolder.IndexOf | genlab.populations/src/genlab/populations/implementations/basic/AttributesHolderInstance.java:38 | the position of the first equal attribute, or -1 iff the attribute is not listed |
| AttributesHolder.GetAt | genlab.populations/src/genlab/populations/implementations/basic/AttributesHolderInstance.java:41-44 | reading slot i returns its value, and an index outside the array raises |
| AttributesHolder.SetAt | genlab.populations/src/genlab/populations/implementations/basic/AttributesHolderInstance.java:51-54 | writing slot i stores the value there and leaves the length and every other slot unchanged; an index outside the array raises |
| AttributesHolder.GetFor | genlab.populations/src/genlab/populations/implementations/basic/AttributesHolderInstance.java:35-39 | reading by attribute returns the slot at the attribute's first position (`indexOf`), and raises iff the attribute is not listed |
| AttributesHolder.SetFor | genlab.populations/src/genlab/populations/implementations/basic/AttributesHolderInstance.java:46-49 | writing by attribute succeeds iff the attribute is listed; the value lands in the slot at its first position and the holder and every other slot are unchanged |
| AttributesHolder.GetByNameAsWritten | genlab.populations/src/genlab/populations/implementations/basic/AttributesHolderInstance.java:56-62 | as written, an unknown name reaches the array with index -1 and raises an index error; a known name behaves as intended |
| AttributesHolder.SetByNameAsWritten | genlab.populations/src/genlab/populations/implementations/basic/AttributesHolderInstance.java:64-71 | as written, writing under an unknown name raises an index error; a known name behaves as intended |
| AttributesHolder.UnknownNameRaisesIndexErrorAsWritten | genlab.populations/src/genlab/populations/implementations/basic/AttributesHolderInstance.java:57-71 | for an agent type with the one attribute "age", asking for "size" fails with index -1, not with the intended ProgramException |
| AttributesHolder.GetByName | genlab.populations/src/genlab/populations/implementations/basic/AttributesHolderInstance.java:56-62 | corrected read by name: ProgramException iff no attribute has the name, else the slot at the position of the attribute found for that name |
| AttributesHolder.SetByName | genlab.populations/src/genlab/populations/implementations/basic/AttributesHolderInstance.java:64-71 | corrected write by name: ProgramException iff no attribute has the name, else the value lands in the slot of the attribute found for that name and every other slot is unchanged |
| AttributesHolder.ValuesAsArray | genlab.populations/src/genlab/populations/implementations/basic/AttributesHolderInstance.java:73-76 | the values returned are the instance's slots, one per attribute |
| AttributesHolder.ValuesAsMap | genlab.populations/src/genlab/populations/implementations/basic/AttributesHolderInstance.java:78-91 | the map's keys are exactly the IDs of the attributes that have a slot |
| AttributesHolder.ValuesAsMapComplete | genlab.populations/src/genlab/populations/implementations/basic/AttributesHolderInstance.java:78-91 | with distinct attribute IDs, the map has one entry per slot and maps attributes[i]'s ID to values[i] |
| AttributesHolder.SetThenGet | genlab.populations/src/genlab/populations/implementations/basic/AttributesHolderInstance.java:41-54 | a slot read after being written returns the written value; other slots read as before |
| AttributesHolder.SetForThenGetFor | genlab.populations/src/genlab/populations/implementations/basic/AttributesHolderInstance.java:35-49 | an attribute read after being written returns the written value; every other attribute reads as before |
| AttributesHolder.SetByNameThenGetByName | genlab.populations/src/genlab/populations/implementations/basic/AttributesHolderInstance.java:56-71 | with the corrected name access, a name read after being written returns the written value; every other name reads as before |
| AttributesHolder.WritesKeepValid | genlab.populations/src/genlab/populations/implementations/basic/AttributesHolderInstance.java:14 | no write, by index, attribute or name, changes the array's length |
| TextMessages.NewFull | genlab.core/src/genlab/core/usermachineinteraction/TextMessage.java:17-25 | a new message counts 1, is stamped with the construction time and keeps every argument |
| TextMessages.NewWithShortName | genlab.core/src/genlab/core/usermachineinteraction/TextMessage.java:27-35 | without a throwable, the exception is null and the message is otherwise that of the full constructor |
| TextMessages.NewWithException | genlab.core/src/genlab/core/usermachineinteraction/TextMessage.java:37-45 | without a short name, the short name is the emitter's simple name |
| TextMessages.New | genlab.core/src/genlab/core/usermachineinteraction/TextMessage.java:47-55 | without either, the exception is null and the short name is the emitter's simple name |
| TextMessages.AddIncrementCount | genlab.core/src/genlab/core/usermachineinteraction/TextMessage.java:78-80 | the counter goes up by exactly one (wrapping at the 32-bit limit) and nothing else changes |
| TextMessages.GetCount | genlab.core/src/genlab/core/usermachineinteraction/TextMessage.java:83-85 | getCount returns the emission counter that the constructors set to 1 |
| TextMessages.GetCountSeesIncrement | genlab.core/src/genlab/core/usermachineinteraction/TextMessage.java:78-85 | below the 32-bit limit, getCount after addIncrementCount is one more than before |
| TextMessages.CountAfterRepeats | genlab.core/src/genlab/core/usermachineinteraction/TextMessage.java:11-14 | a new message repeated n times (below the 32-bit limit) counts 1 + n and is otherwise unchanged |
| TextMessages.CompareTo | genlab.core/src/genlab/core/usermachineinteraction/TextMessage.java:88-90 | the comparison is -1, 0 or 1 and agrees in sign with the comparison of the timestamps |
| TextMessages.CompareToIsOrdering | genlab.core/src/genlab/core/usermachineinteraction/TextMessage.java:88-90 | the comparison is antisymmetric, reflexive-zero and transitive, and incrementing the counter does not affect it |
| VerificationFunctions.Register | genlab.algog.core/src/genlab/algog/algos/meta/VerificationFunctionsAlgo.java:74-87 | registration succeeds iff labels are distinct (else ProgramException, raised in the static initialiser), and then maps exactly the declared labels, each to its value |
| VerificationFunctions.DuplicateLabelRefused | genlab.algog.core/src/genlab/algog/algos/meta/VerificationFunctionsAlgo.java:80-82 | two values with the same label make registration raise ProgramException |
| VerificationFunctions.Registry | genlab.algog.core/src/genlab/algog/algos/meta/VerificationFunctionsAlgo.java:49-87 | the enumeration's labels register: each label maps to its value and nothing else is registered |
| VerificationFunctions.ParseFromLabel | genlab.algog.core/src/genlab/algog/algos/meta/VerificationFunctionsAlgo.java:66-68 | parsing yields a value carrying that label, and null iff no value carries it |
| VerificationFunctions.ParseLabelRoundTrip | genlab.algog.core/src/genlab/algog/algos/meta/VerificationFunctionsAlgo.java:66-85 | every value is parsed back from its label |
| VerificationFunctions.GetLabelsAsList | genlab.algog.core/src/genlab/algog/algos/meta/VerificationFunctionsAlgo.java:70-72 | the list holds every registered label exactly once and nothing else |
| VerificationFunctions.Run | genlab.algog.core/src/genlab/algog/algos/meta/VerificationFunctionsAlgo.java:132-244 | an index outside the enumeration raises. A missing x fails unexpectedly; so does a missing y, except for Poloni with x outside [-pi, pi], which reports the search domain. A constraint violation (never for Poloni) fails before the search-domain check. A search-domain violation fails. Failures set no output; otherwise both F1 and F2 are set and the state is FINISHED_OK |
| VerificationFunctions.ViolatesSearchDomain | genlab.algog.core/src/genlab/algog/algos/meta/VerificationFunctionsAlgo.java:157-187 | the short-circuit search-domain test agrees with the box of each function when y is present; with y missing it is true iff x is outside, and raises iff x is inside |
| VerificationFunctions.PoloniMissingYBeyondDomain | genlab.algog.core/src/genlab/algog/algos/meta/VerificationFunctionsAlgo.java:183-203 | for Poloni, x = 4 with no y reports the search domain, while x = 0 with no y fails unexpectedly |
| VerificationFunctions.Kill | genlab.algog.core/src/genlab/algog/algos/meta/VerificationFunctionsAlgo.java:122-125 | kill sets FINISHED_CANCEL |
| VerificationFunctions.Cancel | genlab.algog.core/src/genlab/algog/algos/meta/VerificationFunctionsAlgo.java:127-130 | cancel has the same effect as kill |
| VerificationFunctions.GetTimeout | genlab.algog.core/src/genlab/algog/algos/meta/VerificationFunctionsAlgo.java:246-249 | the timeout is the constant 200 |

## Left out

- Threads, locks and listener dispatch: the `synchronized` blocks, and listener registration as an effect on the progress object. Subscriptions appear only as events in the model.
- Logging and message channels (`traceTech`, `warnTech`, `warnUser`, `errorUser`, `debugUser`). They appear only where they mark a decision: `ChildCallFailed`, `disabledWarnings`, `ReportNullValue` and `Report`.
- `computationProgressChanged` (the detailed listener) is not a separate member. It calls the same review as `UpdateProgressFromChildren`, without the filter on finished states and on children.
- `collectEntities`, `clean`, `getThreadsUsed`, `initContainerAlgosChildren`, `initDebugExec`, `initParentForSubtasks`, `initLinksWithSubExec` and `initAddTasksAsSubtasks` are not modelled. They are wiring or debugging code outside the aggregation logic.
- The body of `propagateRank` on executions, and cycle detection, are not part of this model. `ContainerInit.InitPropagateRanks` only records the calls that seed propagation.
- `IAlgoInstance.execute`, `getAttributeForId` and the holder's attribute list belong to classes that are not part of this model. They enter as parameters: a function from instance to optional execution, and an attribute of the list with a matching ID, or null. `getAllAttributesCount()` is taken to be the length of `getAllAttributes()`.
- ContainerExecution.UpdateProgressFromChildren: `long` and `int` counters are unbounded integers, so 64-bit overflow of totalToDo/totalDone and 32-bit overflow of `subTasksRemovedCount` are not modelled.
- ContainerExecution.UpdateProgressFromChildren: the `default` branch that throws on an unknown finished state cannot be reached, because the state type has exactly three finished values.
- IterationToReduce.ComputationStateChanged: the connection's `to.receiveInput` is recorded as a delivery event; what the reduce consumer does with it is not part of this model.
- VerificationFunctions.Run: the floating-point formulas for constraints and objectives are abstracted into an `Evaluation` supplied per function and inputs. Search domains are modelled exactly, with `Math.PI` written out as its double value. Doubles are reals, and `NaN` behaviour is not modelled. A missing input stands for the `NullPointerException` raised where the guarded block first unboxes it.
- VerificationFunctions.Register: the registration runs in the enumeration's static initialiser. A duplicate label would therefore reach a caller as `ExceptionInInitializerError` wrapping the ProgramException, and as `NoClassDefFoundError` on later uses. The model stops at the ProgramException.
- VerificationFunctions.GetLabelsAsList: the source lists hash-map keys in unspecified order; the model lists them in declaration order, and its contract states nothing about order.
- AttributesHolder.ValuesAsArray: Java keeps the caller's array in the value-array constructor and hands that same array back here. A write through either reference therefore changes the instance; value sequences cannot express this aliasing.
- AttributesHolder.IndexOf: `List.indexOf` uses `Attribute.equals`, whose code is not part of this model; attributes are compared here by their ID.
- TextMessages: the clock (`System.currentTimeMillis`) is a constructor parameter. `getDate` and the plain field getters are not modelled. The message level and audience enumerations are defined outside this model and are kept by ordinal.

## Findings

| source | as written | input that shows it | evidently intended | confidence | as-written member | corrected member |
|---|---|---|---|---|---|---|
| genlab.populations/src/genlab/populations/implementations/basic/AttributesHolderInstance.java:57-71 | for an unknown attribute name, `new ProgramException(...)` is evaluated but not thrown, so `indexOf(null)` = -1 indexes the array | an agent type with the single attribute "age", asked for "size" | throw `ProgramException("no attribute named ...")` | high, not executed | AttributesHolder.GetByNameAsWritten | AttributesHolder.GetByName |

=== FILE: attributes_holder.dfy ===
/**
 * AttributesHolderInstance: the values of one agent (or other holder
 * instance), stored in a fixed-length array whose slots follow the order of
 * the holder's attribute list. A slot holds a value or null (None).
 */
module AttributesHolder {
  import opened Computation

  /** An attribute of a holder type, identified by its ID. */
  datatype Attribute = Attribute(id: string)

  /**
   * The holder type (IAttributesHolder) as read by its instances: the list
   * `getAllAttributes()`; `getAllAttributesCount()` is its length.
   */
  datatype Holder = Holder(attributes: seq<Attribute>)

  /** An instance: its holder type and its value array. */
  datatype Instance<V> = Instance(holder: Holder, values: seq<Option<V>>)

  /** One slot per attribute of the holder. */
  predicate Valid<V>(inst: Instance<V>) {
    |inst.values| == |inst.holder.attributes|
  }

  /** The constructor taking a value array: the array must have one slot per attribute. */
  function NewWithValues<V>(holder: Holder, values: seq<Option<V>>): (r: Result<Instance<V>>)
    ensures r.Ok? <==> |values| == |holder.attributes|
    ensures r.Err? ==> r.failure.ProgramException?
    ensures r.Ok? ==> Valid(r.value) && r.value.holder == holder && r.value.values == values
  {
    if |values| != |holder.attributes| then
      Err(ProgramException("the count of attributes values is not the same as defined in the agent type"))
    else
      Ok(Instance(holder, values))
  }

  /** The constructor allocating a fresh array: one empty (null) slot per attribute. */
  function New<V>(holder: Holder): (r: Instance<V>)
    ensures Valid(r) && r.holder == holder
    ensures forall i :: 0 <= i < |r.values| ==> r.values[i] == None
  {
    Instance(holder, seq(|holder.attributes|, _ => None))
  }

  /** `List.indexOf`: position of the first equal attribute, or -1. */
  function IndexOf(attributes: seq<Attribute>, a: Attribute): (i: int)
    ensures -1 <= i < |attributes|
    ensures i == -1 <==> a !in attributes
    ensures i >= 0 ==> attributes[i] == a && forall j :: 0 <= j < i ==> attributes[j] != a
  {
    if |attributes| == 0 then -1
    else if attributes[0] == a then 0
    else
      var k := IndexOf(attributes[1..], a);
      if k == -1 then -1 else k + 1
  }

  /** getValueForAttribute(int): array read; an index outside the array raises. */
  function GetAt<V>(inst: Instance<V>, idx: int): (r: Result<Option<V>>)
    ensures r.Ok? <==> 0 <= idx < |inst.values|
    ensures r.Ok? ==> r.value == inst.values[idx]
    ensures r.Err? ==> r.failure == IndexOutOfBounds(idx)
  {
    if 0 <= idx < |inst.values| then Ok(inst.values[idx]) else Err(IndexOutOfBounds(idx))
  }

  /** setValueForAttribute(int, value): array write; an index outside the array raises. */
  function SetAt<V>(inst: Instance<V>, idx: int, v: Option<V>): (r: Result<Instance<V>>)
    ensures r.Ok? <==> 0 <= idx < |inst.values|
    ensures r.Err? ==> r.failure == IndexOutOfBounds(idx)
    ensures r.Ok? ==> r.value.holder == inst.holder && |r.value.values| == |inst.values|
    ensures r.Ok? ==> r.value.values[idx] == v
    ensures r.Ok? ==> forall j :: 0 <= j < |inst.values| && j != idx ==> r.value.values[j] == inst.values[j]
  {
    if 0 <= idx < |inst.values| then Ok(inst.(values := inst.values[idx := v])) else Err(IndexOutOfBounds(idx))
  }

  /** getValueForAttribute(Attribute): the slot at the attribute's position in the holder's list. */
  function GetFor<V>(inst: Instance<V>, a: Attribute): (r: Result<Option<V>>)
    requires Valid(inst)
    ensures r.Ok? <==> a in inst.holder.attributes
    ensures r.Ok? ==> r.value == inst.values[IndexOf(inst.holder.attributes, a)]
    ensures r.Err? ==> r.failure == IndexOutOfBounds(-1)
  {
    GetAt(inst, IndexOf(inst.holder.attributes, a))
  }

  /** setValueForAttribute(Attribute, value): writes the slot at the attribute's position. */
  function SetFor<V>(inst: Instance<V>, a: Attribute, v: Option<V>): (r: Result<Instance<V>>)
    requires Valid(inst)
    ensures r.Ok? <==> a in inst.holder.attributes
    ensures r.Ok? ==> Valid(r.value) && r.value.holder == inst.holder
    ensures r.Ok? ==> r.value.values[IndexOf(inst.holder.attributes, a)] == v
    ensures r.Ok? ==> forall j :: 0 <= j < |inst.values| && j != IndexOf(inst.holder.attributes, a) ==>
                                  r.value.values[j] == inst.values[j]
    ensures r.Err? ==> r.failure == IndexOutOfBounds(-1)
  {
    SetAt(inst, IndexOf(inst.holder.attributes, a), v)
  }

  /** `getAttributeForId`: an attribute of the holder with that ID, or null. */
  function AttributeForId(holder: Holder, name: string): (r: Option<Attribute>)
    ensures r.Some? ==> r.value in holder.attributes && r.value.id == name
    ensures r.None? ==> forall i :: 0 <= i < |holder.attributes| ==> holder.attributes[i].id != name
  {
    if exists i :: 0 <= i < |holder.attributes| && holder.attributes[i].id == name then
      var a :| a in holder.attributes && a.id == name; Some(a)
    else None
  }

  /**
   * getValueForAttribute(String), as written: for an unknown name the
   * ProgramException is created but not thrown, so the lookup goes on with
   * `indexOf(null)` = -1 and fails on the array access instead.
   */
  function GetByNameAsWritten<V>(inst: Instance<V>, name: string): (r: Result<Option<V>>)
    requires Valid(inst)
    ensures AttributeForId(inst.holder, name).None? ==> r == Err(IndexOutOfBounds(-1))
    ensures AttributeForId(inst.holder, name).Some? ==> r == GetByName(inst, name)
  {
    match AttributeForId(inst.holder, name)
    case None => GetAt(inst, -1)
    case Some(a) => GetFor(inst, a)
  }

  /** setValueForAttribute(String, value), as written (same defect as the getter). */
  function SetByNameAsWritten<V>(inst: Instance<V>, name: string, v: Option<V>): (r: Result<Instance<V>>)
    requires Valid(inst)
    ensures AttributeForId(inst.holder, name).None? ==> r == Err(IndexOutOfBounds(-1))
    ensures AttributeForId(inst.holder, name).Some? ==> r == SetByName(inst, name, v)
  {
    match AttributeForId(inst.holder, name)
    case None => SetAt(inst, -1, v)
    case Some(a) => SetFor(inst, a, v)
  }

  /** A one-attribute agent type asked for an attribute it does not have. */
  lemma UnknownNameRaisesIndexErrorAsWritten()
    ensures var inst: Instance<int> := New(Holder([Attribute("age")]));
            && AttributeForId(inst.holder, "size").None?
            && GetByNameAsWritten(inst, "size") == Err(IndexOutOfBounds(-1))
            && SetByNameAsWritten(inst, "size", Some(3)) == Err(IndexOutOfBounds(-1))
  {
    var holder := Holder([Attribute("age")]);
    assert holder.attributes[0].id != "size";
  }

  /** getValueForAttribute(String), as intended: an unknown name raises the ProgramException. */
  function GetByName<V>(inst: Instance<V>, name: string): (r: Result<Option<V>>)
    requires Valid(inst)
    ensures r.Err? <==> AttributeForId(inst.holder, name).None?
    ensures r.Err? ==> r.failure.ProgramException?
    ensures r.Ok? ==> exists i :: 0 <= i < |inst.values| && inst.holder.attributes[i].id == name
                                  && r.value == inst.values[i]
    ensures r.Ok? ==> r.value == inst.values[IndexOf(inst.holder.attributes, AttributeForId(inst.holder, name).value)]
  {
    match AttributeForId(inst.holder, name)
    case None => Err(ProgramException("no attribute named " + name))
    case Some(a) => GetFor(inst, a)
  }

  /** setValueForAttribute(String, value), as intended. */
  function SetByName<V>(inst: Instance<V>, name: string, v: Option<V>): (r: Result<Instance<V>>)
    requires Valid(inst)
    ensures r.Err? <==> AttributeForId(inst.holder, name).None?
    ensures r.Err? ==> r.failure.ProgramException?
    ensures r.Ok? ==> Valid(r.value) && r.value.holder == inst.holder
    ensures r.Ok? ==> exists i :: 0 <= i < |inst.values| && inst.holder.attributes[i].id == name
                                  && r.value.values[i] == v
    ensures r.Ok? ==> var k := IndexOf(inst.holder.attributes, AttributeForId(inst.holder, name).value);
                      && r.value.values[k] == v
                      && forall j :: 0 <= j < |inst.values| && j != k ==> r.value.values[j] == inst.values[j]
  {
    match AttributeForId(inst.holder, name)
    case None => Err(ProgramException("no attribute named " + name))
    case Some(a) => SetFor(inst, a, v)
  }

  /** getValuesOfAttributesAsArray: the backing array itself. */
  function ValuesAsArray<V>(inst: Instance<V>): (r: seq<Option<V>>)
    requires Valid(inst)
    ensures |r| == |inst.holder.attributes|
    ensures r == inst.values
  {
    inst.values
  }

  /** The IDs of the first `n` attributes. */
  function IdsUpTo(attributes: seq<Attribute>, n: nat): (ids: set<string>)
    requires n <= |attributes|
  {
    if n == 0 then {} else IdsUpTo(attributes, n - 1) + {attributes[n - 1].id}
  }

  lemma {:induction false} IdsUpToMembers(attributes: seq<Attribute>, n: nat, k: string)
    requires n <= |attributes|
    ensures k in IdsUpTo(attributes, n) <==> exists i :: 0 <= i < n && attributes[i].id == k
  {
    if n > 0 {
      IdsUpToMembers(attributes, n - 1, k);
      if attributes[n - 1].id == k {
        assert exists i :: 0 <= i < n && attributes[i].id == k;
      }
    }
  }

  /** The map after the first `n` puts of getValuesOfAttributesAsMap: later IDs overwrite earlier ones. */
  function MapPrefix<V>(attributes: seq<Attribute>, values: seq<Option<V>>, n: nat): (m: map<string, Option<V>>)
    requires n <= |values| <= |attributes|
    ensures m.Keys == IdsUpTo(attributes, n)
    ensures n > 0 ==> m[attributes[n - 1].id] == values[n - 1]
  {
    if n == 0 then map[]
    else MapPrefix(attributes, values, n - 1)[attributes[n - 1].id := values[n - 1]]
  }

  /** getValuesOfAttributesAsMap: maps each attribute's ID to the value in its slot. */
  function ValuesAsMap<V>(inst: Instance<V>): (m: map<string, Option<V>>)
    requires Valid(inst)
    ensures forall k :: k in m <==> exists i :: 0 <= i < |inst.values| && inst.holder.attributes[i].id == k
  {
    var m := MapPrefix(inst.holder.attributes, inst.values, |inst.values|);
    forall k ensures k in m <==> exists i :: 0 <= i < |inst.values| && inst.holder.attributes[i].id == k {
      IdsUpToMembers(inst.holder.attributes, |inst.values|, k);
    }
    m
  }

  predicate DistinctIds(attributes: seq<Attribute>) {
    forall i, j :: 0 <= i < j < |attributes| ==> attributes[i].id != attributes[j].id
  }

  lemma {:induction false} MapPrefixSize<V>(attributes: seq<Attribute>, values: seq<Option<V>>, n: nat)
    requires n <= |values| <= |attributes| && DistinctIds(attributes)
    ensures |MapPrefix(attributes, values, n)| == n
  {
    if n > 0 {
      MapPrefixSize(attributes, values, n - 1);
      var m0 := MapPrefix(attributes, values, n - 1);
      var id := attributes[n - 1].id;
      assert forall i :: 0 <= i < n - 1 ==> attributes[i].id != id;
      IdsUpToMembers(attributes, n - 1, id);
      assert MapPrefix(attributes, values, n).Keys == m0.Keys + {id};
    }
  }

  lemma {:induction false} MapPrefixValues<V>(attributes: seq<Attribute>, values: seq<Option<V>>, n: nat)
    requires n <= |values| <= |attributes| && DistinctIds(attributes)
    ensures forall i :: 0 <= i < n ==>
              attributes[i].id in MapPrefix(attributes, values, n)
              && MapPrefix(attributes, values, n)[attributes[i].id] == values[i]
  {
    if n > 0 {
      MapPrefixValues(attributes, values, n - 1);
      var m0 := MapPrefix(attributes, values, n - 1);
      var id := attributes[n - 1].id;
      assert MapPrefix(attributes, values, n) == m0[id := values[n - 1]];
      forall i | 0 <= i < n - 1
        ensures attributes[i].id in MapPrefix(attributes, values, n)
        ensures MapPrefix(attributes, values, n)[attributes[i].id] == values[i]
      {
        assert attributes[i].id != id;
      }
    }
  }

  /** With distinct attribute IDs, the map has one entry per slot and each ID maps to its slot's value. */
  lemma ValuesAsMapComplete<V>(inst: Instance<V>)
    requires Valid(inst) && DistinctIds(inst.holder.attributes)
    ensures |ValuesAsMap(inst)| == |inst.values|
    ensures forall i :: 0 <= i < |inst.values| ==> ValuesAsMap(inst)[inst.holder.attributes[i].id] == inst.values[i]
  {
    MapPrefixSize(inst.holder.attributes, inst.values, |inst.values|);
    MapPrefixValues(inst.holder.attributes, inst.values, |inst.values|);
  }

  /** Setting a slot and reading it back returns the stored value; other slots read as before. */
  lemma SetThenGet<V>(inst: Instance<V>, idx: int, v: Option<V>, other: int)
    requires 0 <= idx < |inst.values|
    requires other != idx
    ensures GetAt(SetAt(inst, idx, v).value, idx) == Ok(v)
    ensures GetAt(SetAt(inst, idx, v).value, other) == GetAt(inst, other)
  {
  }

  /**
   * Writing an attribute and reading it back returns the written value;
   * every other attribute reads as before.
   */
  lemma SetForThenGetFor<V>(inst: Instance<V>, a: Attribute, b: Attribute, v: Option<V>)
    requires Valid(inst) && a in inst.holder.attributes
    ensures GetFor(SetFor(inst, a, v).value, a) == Ok(v)
    ensures b != a ==> GetFor(SetFor(inst, a, v).value, b) == GetFor(inst, b)
  {
    if b != a && b in inst.holder.attributes {
      assert inst.holder.attributes[IndexOf(inst.holder.attributes, b)] == b;
    }
  }

  /**
   * Writing under a name and reading that name back returns the written
   * value; every other name reads as before.
   */
  lemma SetByNameThenGetByName<V>(inst: Instance<V>, name: string, other: string, v: Option<V>)
    requires Valid(inst) && AttributeForId(inst.holder, name).Some?
    ensures GetByName(SetByName(inst, name, v).value, name) == Ok(v)
    ensures other != name ==> GetByName(SetByName(inst, name, v).value, other) == GetByName(inst, other)
  {
    var a := AttributeForId(inst.holder, name).value;
    SetForThenGetFor(inst, a, a, v);
    if other != name && AttributeForId(inst.holder, other).Some? {
      SetForThenGetFor(inst, a, AttributeForId(inst.holder, other).value, v);
    }
  }

  /** No write changes the length of the array, so every instance keeps one slot per attribute. */
  lemma WritesKeepValid<V>(inst: Instance<V>, idx: int, a: Attribute, name: string, v: Option<V>)
    requires Valid(inst)
    ensures SetAt(inst, idx, v).Ok? ==> Valid(SetAt(inst, idx, v).value)
    ensures SetFor(inst, a, v).Ok? ==> Valid(SetFor(inst, a, v).value)
    ensures SetByName(inst, name, v).Ok? ==> Valid(SetByName(inst, name, v).value)
  {
  }
}

=== FILE: computation.dfy ===
/**
 * Vocabulary shared by every execution component: the lifecycle state of a
 * unit of work, a snapshot of its progress object, and the wrappers used for
 * Java's null and for the exceptions the engine raises.
 */
module Computation {

  /** Identity of an execution task (Java compares tasks by reference). */
  type TaskId = nat

  /** The lifecycle of one unit of work. */
  datatype ComputationState =
    | Created
    | Started
    | FinishedOk
    | FinishedCancel
    | FinishedFailure
  {
    /** The three FINISHED_* values share this predicate. */
    predicate IsFinished() {
      FinishedOk? || FinishedCancel? || FinishedFailure?
    }
  }

  /**
   * A snapshot of a task's progress object: which task owns it, its state
   * and its done/total counters.
   */
  datatype Progress = Progress(owner: TaskId, state: ComputationState, done: int, total: int)

  /** A call `propagateRank(rank, visited)` made on the execution `exec`. */
  datatype RankCall = RankCall(exec: TaskId, rank: int, visited: set<TaskId>)

  /** Java's nullable reference. */
  datatype Option<+T> = None | Some(value: T)

  /** The exceptions the modelled code raises. */
  datatype Failure =
    | ProgramException(message: string)
    | NotImplementedException
    | IndexOutOfBounds(index: int)

  /** Either a normal return or a raised exception. */
  datatype Result<+T> = Ok(value: T) | Err(failure: Failure)

  /** Java's `Map.get`: the mapped value, or null when the key is absent. */
  function Get<K, V>(m: map<K, V>, k: K): (r: Option<V>)
    ensures r.Some? <==> k in m
    ensures r.Some? ==> r.value == m[k]
  {
    if k in m then Some(m[k]) else None
  }
}

=== FILE: container.dfy ===
/**
 * The container-aggregation state machine of AbstractContainerExecution.
 *
 * A container holds an ordered list of child tasks, each seen through a
 * snapshot of its progress object. Every Java method that mutates the
 * container becomes a pure transition returning the next container together
 * with the calls it makes on other objects (listener subscriptions, runner
 * registration, the finished hook, kill/cancel forwarding), in order.
 */
module ContainerExecution {
  import opened Computation

  /** The fields of AbstractContainerExecution that drive its behaviour. */
  datatype Container = Container(
    tasks: seq<Progress>,
    subTasksRemovedCount: int,
    subTasksRemovedDone: int,
    somethingFailed: bool,
    somethingCanceled: bool,
    canceled: bool,
    autoFinishWhenChildrenFinished: bool,
    ignoreFailuresFromChildren: bool,
    ignoreCancelFromChildren: bool,
    autoUpdateProgressFromChildren: bool,
    progress: Progress)

  /** A call the container makes on another object. */
  datatype Event =
    | SubscribedSimple(task: TaskId)
    | SubscribedDetailed(task: TaskId)
    | RegisteredWithRunner(task: TaskId)
      /** The finished hook, with the state passed to it and the container's own state it can observe. */
    | HookFinished(state: ComputationState, ownStateSeen: ComputationState)
    | KillCalled(task: TaskId)
    | CancelCalled(task: TaskId)
      /** A child's kill/cancel raised a RuntimeException, which was caught and logged. */
    | ChildCallFailed(task: TaskId)

  /** The container after a transition, and the calls made during it. */
  datatype Step = Step(c: Container, events: seq<Event>)

  /** A freshly constructed container, with the field initialisers of the class. */
  function NewContainer(progress: Progress): (c: Container)
    ensures c.tasks == [] && c.subTasksRemovedCount == 0 && c.subTasksRemovedDone == 0
    ensures !c.somethingFailed && !c.somethingCanceled && !c.canceled
    ensures c.autoFinishWhenChildrenFinished && c.autoUpdateProgressFromChildren
    ensures !c.ignoreFailuresFromChildren && !c.ignoreCancelFromChildren
    ensures c.progress == progress
  {
    Container([], 0, 0, false, false, false, true, false, false, true, progress)
  }

  // ---------------------------------------------------------------------
  // Children
  // ---------------------------------------------------------------------

  /** `tasks.contains(t)`: some child is the task `id`. */
  predicate HasChild(tasks: seq<Progress>, id: TaskId) {
    exists i :: 0 <= i < |tasks| && tasks[i].owner == id
  }

  /** No task appears twice among the children. */
  predicate DistinctOwners(tasks: seq<Progress>) {
    forall i, j :: 0 <= i < j < |tasks| ==> tasks[i].owner != tasks[j].owner
  }

  /** Counters a well-behaved progress object reports. */
  predicate WellFormed(p: Progress) {
    0 <= p.done <= p.total
  }

  /** Position of the first child that is the task `id` (LinkedList.indexOf). */
  function FirstIndex(tasks: seq<Progress>, id: TaskId): (i: nat)
    requires HasChild(tasks, id)
    ensures i < |tasks| && tasks[i].owner == id
    ensures forall j :: 0 <= j < i ==> tasks[j].owner != id
  {
    if tasks[0].owner == id then 0
    else
      assert HasChild(tasks[1..], id) by {
        var k :| 0 <= k < |tasks| && tasks[k].owner == id;
        assert tasks[1..][k - 1].owner == id;
      }
      1 + FirstIndex(tasks[1..], id)
  }

  /** `LinkedList.remove(Object)`: drops the first occurrence of task `id`, if any. */
  function RemoveChild(tasks: seq<Progress>, id: TaskId): (r: seq<Progress>)
    ensures !HasChild(tasks, id) ==> r == tasks
    ensures HasChild(tasks, id) ==>
              var i := FirstIndex(tasks, id); r == tasks[..i] + tasks[i + 1..]
  {
    if HasChild(tasks, id) then
      var i := FirstIndex(tasks, id);
      tasks[..i] + tasks[i + 1..]
    else
      tasks
  }

  /** Removal takes out exactly one element, the first child that is `id`, and nothing when there is none. */
  lemma RemoveChildDropsOne(tasks: seq<Progress>, id: TaskId)
    ensures HasChild(tasks, id) ==>
              multiset(RemoveChild(tasks, id)) + multiset{tasks[FirstIndex(tasks, id)]} == multiset(tasks)
    ensures !HasChild(tasks, id) ==> multiset(RemoveChild(tasks, id)) == multiset(tasks)
  {
    if HasChild(tasks, id) {
      var i := FirstIndex(tasks, id);
      var r := RemoveChild(tasks, id);
      assert r == tasks[..i] + tasks[i + 1..];
      MultisetWithout(tasks, i);
    }
  }

  lemma MultisetWithout<T>(s: seq<T>, i: nat)
    requires i < |s|
    ensures multiset(s[..i] + s[i + 1..]) + multiset{s[i]} == multiset(s)
  {
    assert s == s[..i] + [s[i]] + s[i + 1..];
  }

  // ---------------------------------------------------------------------
  // Aggregation (reference definition)
  // ---------------------------------------------------------------------

  /** Sum of `f` over the children, accumulated left to right. */
  function Sum(tasks: seq<Progress>, f: Progress -> int): int {
    if |tasks| == 0 then 0 else Sum(tasks[..|tasks| - 1], f) + f(tasks[|tasks| - 1])
  }

  /** What one child adds to totalToDo: its own total plus one for its completion. */
  function ToDoShare(p: Progress): int {
    p.total + 1
  }

  /** What one child adds to totalDone: one once finished, its done-count before. */
  function DoneShare(p: Progress): int {
    if p.state.IsFinished() then 1 else p.done
  }

  predicate SomeChildIn(tasks: seq<Progress>, s: ComputationState) {
    exists i :: 0 <= i < |tasks| && tasks[i].state == s
  }

  predicate SomeChildUnfinished(tasks: seq<Progress>) {
    exists i :: 0 <= i < |tasks| && !tasks[i].state.IsFinished()
  }

  /** The outcome of one review of the children. */
  datatype Scan = Scan(
    totalToDo: int,
    totalDone: int,
    somethingNotFinished: bool,
    somethingFailed: bool,
    somethingCanceled: bool)

  /**
   * What a review of the children yields, stated as closed formulas:
   * totalToDo = removedDone + sum(total_i + 1),
   * totalDone = removedDone + sum(finished_i ? 1 : done_i),
   * and the sticky flags extended with the children's terminal states.
   */
  function Aggregate(c: Container): Scan {
    Scan(
      c.subTasksRemovedDone + Sum(c.tasks, ToDoShare),
      c.subTasksRemovedDone + Sum(c.tasks, DoneShare),
      SomeChildUnfinished(c.tasks),
      c.somethingFailed || SomeChildIn(c.tasks, FinishedFailure),
      c.somethingCanceled || SomeChildIn(c.tasks, FinishedCancel))
  }

  lemma PrefixStep(tasks: seq<Progress>, i: nat)
    requires i < |tasks|
    ensures tasks[..i + 1][..i] == tasks[..i]
    ensures tasks[..i + 1][i] == tasks[i]
    ensures SomeChildUnfinished(tasks[..i + 1]) <==>
              SomeChildUnfinished(tasks[..i]) || !tasks[i].state.IsFinished()
    ensures forall s :: SomeChildIn(tasks[..i + 1], s) <==> SomeChildIn(tasks[..i], s) || tasks[i].state == s
  {
    var p := tasks[..i + 1];
    if SomeChildUnfinished(p) {
      var k :| 0 <= k < |p| && !p[k].state.IsFinished();
      if k < i { assert tasks[..i][k] == p[k]; }
    }
    if SomeChildUnfinished(tasks[..i]) {
      var k :| 0 <= k < i && !tasks[..i][k].state.IsFinished();
      assert p[k] == tasks[..i][k];
    }
    forall s ensures SomeChildIn(p, s) <==> SomeChildIn(tasks[..i], s) || tasks[i].state == s {
      if SomeChildIn(p, s) {
        var k :| 0 <= k < |p| && p[k].state == s;
        if k < i { assert tasks[..i][k] == p[k]; }
      }
      if SomeChildIn(tasks[..i], s) {
        var k :| 0 <= k < i && tasks[..i][k].state == s;
        assert p[k] == tasks[..i][k];
      }
    }
  }

  /**
   * The review loop of updateProgressFromChildren, as written: it walks the
   * children once, accumulating the counters and raising the sticky flags.
   */
  method ScanChildren(c: Container) returns (s: Scan)
    ensures s == Aggregate(c)
  {
    var totalToDo := c.subTasksRemovedDone;
    var totalDone := c.subTasksRemovedDone;
    var somethingNotFinished := false;
    var somethingFailed := c.somethingFailed;
    var somethingCanceled := c.somethingCanceled;
    var i := 0;
    while i < |c.tasks|
      invariant 0 <= i <= |c.tasks|
      invariant totalToDo == c.subTasksRemovedDone + Sum(c.tasks[..i], ToDoShare)
      invariant totalDone == c.subTasksRemovedDone + Sum(c.tasks[..i], DoneShare)
      invariant somethingNotFinished == SomeChildUnfinished(c.tasks[..i])
      invariant somethingFailed == (c.somethingFailed || SomeChildIn(c.tasks[..i], FinishedFailure))
      invariant somethingCanceled == (c.somethingCanceled || SomeChildIn(c.tasks[..i], FinishedCancel))
    {
      var sub := c.tasks[i];
      PrefixStep(c.tasks, i);
      totalToDo := totalToDo + sub.total;
      totalToDo := totalToDo + 1;
      if !sub.state.IsFinished() {
        somethingNotFinished := true;
        totalDone := totalDone + sub.done;
      } else {
        totalDone := totalDone + 1;
        if sub.state == FinishedFailure {
          somethingFailed := true;
        } else if sub.state == FinishedCancel {
          somethingCanceled := true;
        }
      }
      i := i + 1;
    }
    assert c.tasks[..i] == c.tasks;
    s := Scan(totalToDo, totalDone, somethingNotFinished, somethingFailed, somethingCanceled);
  }

  /** The container's own terminal state, from the sticky flags and the two ignore options. */
  function Classify(failed: bool, canceled: bool, ignoreFailures: bool, ignoreCancel: bool): (s: ComputationState)
    ensures s.IsFinished()
    ensures s == FinishedFailure <==> failed && !ignoreFailures
    ensures s == FinishedCancel <==> !(failed && !ignoreFailures) && canceled && !ignoreCancel
    ensures s == FinishedOk <==> (!failed || ignoreFailures) && (!canceled || ignoreCancel)
  {
    if failed && !ignoreFailures then FinishedFailure
    else if canceled && !ignoreCancel then FinishedCancel
    else FinishedOk
  }

  // ---------------------------------------------------------------------
  // Transitions
  // ---------------------------------------------------------------------

  /**
   * updateProgressFromChildren: review the children, then either report the
   * aggregated counters on the container's own progress, or run the finished
   * hook and fix the container's terminal state.
   */
  function UpdateProgressFromChildren(c: Container): (r: Step)
    // only the sticky flags and the container's own progress can change
    ensures r.c.(somethingFailed := c.somethingFailed, somethingCanceled := c.somethingCanceled,
                 progress := c.progress) == c
    ensures r.c.progress.owner == c.progress.owner
    ensures c.somethingFailed ==> r.c.somethingFailed
    ensures c.somethingCanceled ==> r.c.somethingCanceled
    // at most one call, the hook, and it sees the state the container still had
    ensures r.events == [] || r.events == [HookFinished(r.c.progress.state, c.progress.state)]
    ensures r.events != [] ==> r.c.progress.state.IsFinished()
    ensures r.events == [] ==> r.c.progress.state == c.progress.state
    // with both switches off nothing is reviewed at all
    ensures !c.autoUpdateProgressFromChildren && !c.autoFinishWhenChildrenFinished ==> r == Step(c, [])
    // otherwise the sticky flags are exactly what the review found
    ensures c.autoUpdateProgressFromChildren || c.autoFinishWhenChildrenFinished ==>
              r.c.somethingFailed == Aggregate(c).somethingFailed
              && r.c.somethingCanceled == Aggregate(c).somethingCanceled
    // with auto-finish off, outside the counter update, the container's progress is left alone
    ensures !c.autoFinishWhenChildrenFinished
            && !(c.autoUpdateProgressFromChildren && Aggregate(c).somethingNotFinished
                 && !Aggregate(c).somethingFailed && !Aggregate(c).somethingCanceled) ==>
              r.c.progress == c.progress && r.events == []
  {
    if !c.autoUpdateProgressFromChildren && !c.autoFinishWhenChildrenFinished then
      Step(c, [])
    else
      var s := Aggregate(c);
      var flagged := c.(somethingFailed := s.somethingFailed, somethingCanceled := s.somethingCanceled);
      if c.autoUpdateProgressFromChildren && s.somethingNotFinished
         && !s.somethingFailed && !s.somethingCanceled then
        Step(flagged.(progress := c.progress.(total := s.totalToDo, done := s.totalDone)), [])
      else if c.autoFinishWhenChildrenFinished then
        var ourState := Classify(s.somethingFailed, s.somethingCanceled,
                                 c.ignoreFailuresFromChildren, c.ignoreCancelFromChildren);
        Step(flagged.(progress := c.progress.(state := ourState)), [HookFinished(ourState, c.progress.state)])
      else
        Step(flagged, [])
  }

  /**
   * A child's progress object is shared with the container, so the state a
   * notification carries is what the container sees of that child: every
   * snapshot owned by `p.owner` becomes `p`.
   */
  function Refresh(tasks: seq<Progress>, p: Progress): (r: seq<Progress>)
    ensures |r| == |tasks|
    ensures forall i :: 0 <= i < |r| && tasks[i].owner == p.owner ==> r[i] == p
    ensures forall i :: 0 <= i < |r| && tasks[i].owner != p.owner ==> r[i] == tasks[i]
    ensures !HasChild(tasks, p.owner) ==> r == tasks
    ensures forall id :: HasChild(r, id) <==> HasChild(tasks, id)
  {
    var r := seq(|tasks|, i requires 0 <= i < |tasks| => if tasks[i].owner == p.owner then p else tasks[i]);
    assert forall id :: HasChild(r, id) ==> HasChild(tasks, id) by {
      forall id | HasChild(r, id) ensures HasChild(tasks, id) {
        var i :| 0 <= i < |r| && r[i].owner == id;
        assert tasks[i].owner == id;
      }
    }
    assert forall id :: HasChild(tasks, id) ==> HasChild(r, id) by {
      forall id | HasChild(tasks, id) ensures HasChild(r, id) {
        var i :| 0 <= i < |tasks| && tasks[i].owner == id;
        assert r[i].owner == id;
      }
    }
    r
  }

  /**
   * computationStateChanged: a notification from a progress object. The
   * notifying child's state is already visible through the shared progress
   * object; the container reviews its children only when that state is
   * finished and the progress belongs to a current child.
   */
  function ComputationStateChanged(c: Container, p: Progress): (r: Step)
    ensures !p.state.IsFinished() || !HasChild(c.tasks, p.owner) ==>
              r == Step(c.(tasks := Refresh(c.tasks, p)), [])
    ensures !HasChild(c.tasks, p.owner) ==> r == Step(c, [])
    ensures p.state.IsFinished() && HasChild(c.tasks, p.owner) ==>
              r == UpdateProgressFromChildren(c.(tasks := Refresh(c.tasks, p)))
  {
    var seen := c.(tasks := Refresh(c.tasks, p));
    if !p.state.IsFinished() then Step(seen, [])
    else if !HasChild(c.tasks, p.owner) then Step(seen, [])
    else UpdateProgressFromChildren(seen)
  }

  /**
   * taskCleaning: forget a finished child while remembering its work.
   * Cleaning a task that is not finished raises a ProgramException.
   */
  function TaskCleaning(c: Container, task: Progress): (r: Result<Container>)
    ensures r.Err? <==> !task.state.IsFinished()
    ensures r.Err? ==> r.failure.ProgramException?
    ensures r.Ok? ==> r.value.subTasksRemovedCount == c.subTasksRemovedCount + 1
    ensures r.Ok? ==> r.value.subTasksRemovedDone == c.subTasksRemovedDone + task.done
    ensures r.Ok? ==> r.value.somethingFailed == (c.somethingFailed || task.state == FinishedFailure)
    ensures r.Ok? ==> r.value.somethingCanceled == (c.somethingCanceled || task.state == FinishedCancel)
    ensures r.Ok? ==> r.value.tasks == RemoveChild(c.tasks, task.owner)
    ensures r.Ok? ==> r.value.(tasks := c.tasks, subTasksRemovedCount := c.subTasksRemovedCount,
                               subTasksRemovedDone := c.subTasksRemovedDone,
                               somethingFailed := c.somethingFailed,
                               somethingCanceled := c.somethingCanceled) == c
  {
    if !task.state.IsFinished() then
      Err(ProgramException("only finished tasks should be cleaned, or unknown finished state"))
    else
      var flagged := c.(somethingFailed := c.somethingFailed || task.state == FinishedFailure,
                        somethingCanceled := c.somethingCanceled || task.state == FinishedCancel);
      var removed := RemoveChild(c.tasks, task.owner);
      Ok(flagged.(subTasksRemovedCount := c.subTasksRemovedCount + 1,
                  subTasksRemovedDone := c.subTasksRemovedDone + task.done,
                  tasks := removed))
  }

  /**
   * addTask: register a child once. A new child is appended, the container
   * subscribes to its progress (detailed updates only with auto-update on),
   * and it is handed to the runner only if the runner already knows the
   * container.
   */
  function AddTask(c: Container, t: Progress, runnerContainsContainer: bool): (r: Step)
    ensures HasChild(r.c.tasks, t.owner)
    ensures HasChild(c.tasks, t.owner) ==> r == Step(c, [])
    ensures !HasChild(c.tasks, t.owner) ==> r.c.tasks == c.tasks + [t]
    ensures r.c.(tasks := c.tasks) == c
    ensures SubscribedSimple(t.owner) in r.events <==> !HasChild(c.tasks, t.owner)
    ensures SubscribedDetailed(t.owner) in r.events <==>
              !HasChild(c.tasks, t.owner) && c.autoUpdateProgressFromChildren
    ensures RegisteredWithRunner(t.owner) in r.events <==>
              !HasChild(c.tasks, t.owner) && runnerContainsContainer
    ensures forall e :: e in r.events ==>
              e in [SubscribedSimple(t.owner), SubscribedDetailed(t.owner), RegisteredWithRunner(t.owner)]
    ensures DistinctOwners(c.tasks) ==> DistinctOwners(r.c.tasks)
    // a new child is subscribed first, handed to the runner last, each call made once
    ensures !HasChild(c.tasks, t.owner) ==> 1 <= |r.events| <= 3 && r.events[0] == SubscribedSimple(t.owner)
    ensures RegisteredWithRunner(t.owner) in r.events ==> r.events[|r.events| - 1] == RegisteredWithRunner(t.owner)
    ensures forall i, j :: 0 <= i < j < |r.events| ==> r.events[i] != r.events[j]
  {
    if HasChild(c.tasks, t.owner) then
      Step(c, [])
    else
      var c' := c.(tasks := c.tasks + [t]);
      assert c'.tasks[|c.tasks|].owner == t.owner;
      assert forall i :: 0 <= i < |c.tasks| ==> c'.tasks[i] == c.tasks[i];
      var detailed := if c.autoUpdateProgressFromChildren then [SubscribedDetailed(t.owner)] else [];
      var registered := if runnerContainsContainer then [RegisteredWithRunner(t.owner)] else [];
      SubscriptionOrder(t.owner, c.autoUpdateProgressFromChildren, runnerContainsContainer);
      Step(c', [SubscribedSimple(t.owner)] + detailed + registered)
  }

  /** The calls for a new child: the simple subscription first, the runner last, none twice. */
  lemma SubscriptionOrder(id: TaskId, detailed: bool, registered: bool)
    ensures var events := [SubscribedSimple(id)]
                          + (if detailed then [SubscribedDetailed(id)] else [])
                          + (if registered then [RegisteredWithRunner(id)] else []);
            && 1 <= |events| <= 3 && events[0] == SubscribedSimple(id)
            && (registered ==> events[|events| - 1] == RegisteredWithRunner(id))
            && forall i, j :: 0 <= i < j < |events| ==> events[i] != events[j]
  {
    if detailed && registered {
      assert [SubscribedSimple(id)] + [SubscribedDetailed(id)] + [RegisteredWithRunner(id)]
          == [SubscribedSimple(id), SubscribedDetailed(id), RegisteredWithRunner(id)];
    }
  }

  /** The children's tasks, in order. */
  function Owners(tasks: seq<Progress>): (r: seq<TaskId>)
    ensures |r| == |tasks|
    ensures forall i :: 0 <= i < |r| ==> r[i] == tasks[i].owner
  {
    seq(|tasks|, i requires 0 <= i < |tasks| => tasks[i].owner)
  }

  /** The tasks of the unfinished children, in order. */
  function UnfinishedOwners(tasks: seq<Progress>): seq<TaskId> {
    if |tasks| == 0 then []
    else (if tasks[0].state.IsFinished() then [] else [tasks[0].owner]) + UnfinishedOwners(tasks[1..])
  }

  /** The tasks that receive a kill, in the order of the calls. */
  function Killed(events: seq<Event>): seq<TaskId> {
    if |events| == 0 then []
    else (if events[0].KillCalled? then [events[0].task] else []) + Killed(events[1..])
  }

  /** The tasks that receive a cancel, in the order of the calls. */
  function Cancelled(events: seq<Event>): seq<TaskId> {
    if |events| == 0 then []
    else (if events[0].CancelCalled? then [events[0].task] else []) + Cancelled(events[1..])
  }

  lemma {:induction false} TargetsAppend(a: seq<Event>, b: seq<Event>)
    ensures Killed(a + b) == Killed(a) + Killed(b)
    ensures Cancelled(a + b) == Cancelled(a) + Cancelled(b)
  {
    if |a| > 0 {
      assert (a + b)[1..] == a[1..] + b;
      TargetsAppend(a[1..], b);
    } else {
      assert a + b == b;
    }
  }

  /** One child's kill (or cancel), with its logged failure, targets that child alone. */
  lemma HeadTargets(id: TaskId, failing: set<TaskId>, rest: seq<Event>)
    ensures Killed([KillCalled(id)] + (if id in failing then [ChildCallFailed(id)] else []) + rest)
            == [id] + Killed(rest)
    ensures Cancelled([CancelCalled(id)] + (if id in failing then [ChildCallFailed(id)] else []) + rest)
            == [id] + Cancelled(rest)
  {
    var logged := if id in failing then [ChildCallFailed(id)] else [];
    TargetsAppend([KillCalled(id)] + logged, rest);
    TargetsAppend([CancelCalled(id)] + logged, rest);
    assert ([KillCalled(id)] + logged)[1..] == logged;
    assert ([CancelCalled(id)] + logged)[1..] == logged;
  }

  lemma OwnersSplit(tasks: seq<Progress>)
    requires |tasks| > 0
    ensures Owners(tasks) == [tasks[0].owner] + Owners(tasks[1..])
  {
  }

  /** The calls `kill` makes: every child is killed; a failing kill is logged and the loop goes on. */
  function KillCalls(tasks: seq<Progress>, failing: set<TaskId>): (r: seq<Event>)
    ensures forall id :: KillCalled(id) in r <==> HasChild(tasks, id)
    ensures forall id :: ChildCallFailed(id) in r <==> HasChild(tasks, id) && id in failing
    ensures forall e :: e in r ==> e.KillCalled? || e.ChildCallFailed?
    // one kill per child, in the children's order
    ensures Killed(r) == Owners(tasks)
  {
    if |tasks| == 0 then []
    else
      var id := tasks[0].owner;
      var rest := KillCalls(tasks[1..], failing);
      HasChildSplit(tasks);
      var head := [KillCalled(id)] + (if id in failing then [ChildCallFailed(id)] else []);
      HeadTargets(id, failing, rest);
      OwnersSplit(tasks);
      head + rest
  }

  /** The calls `cancel` makes: only unfinished children are cancelled. */
  function CancelCalls(tasks: seq<Progress>, failing: set<TaskId>): (r: seq<Event>)
    ensures forall id :: CancelCalled(id) in r <==> UnfinishedChild(tasks, id)
    ensures forall id :: ChildCallFailed(id) in r <==> UnfinishedChild(tasks, id) && id in failing
    ensures forall e :: e in r ==> e.CancelCalled? || e.ChildCallFailed?
    // one cancel per unfinished child, in the children's order
    ensures Cancelled(r) == UnfinishedOwners(tasks)
  {
    if |tasks| == 0 then []
    else
      var id := tasks[0].owner;
      var rest := CancelCalls(tasks[1..], failing);
      UnfinishedChildSplit(tasks);
      if tasks[0].state.IsFinished() then rest
      else
        var head := [CancelCalled(id)] + (if id in failing then [ChildCallFailed(id)] else []);
        HeadTargets(id, failing, rest);
        head + rest
  }

  /** Some child that is the task `id` has not finished yet. */
  predicate UnfinishedChild(tasks: seq<Progress>, id: TaskId) {
    exists i :: 0 <= i < |tasks| && tasks[i].owner == id && !tasks[i].state.IsFinished()
  }

  lemma HasChildSplit(tasks: seq<Progress>)
    requires |tasks| > 0
    ensures forall id :: HasChild(tasks, id) <==> tasks[0].owner == id || HasChild(tasks[1..], id)
  {
    forall id ensures HasChild(tasks, id) <==> tasks[0].owner == id || HasChild(tasks[1..], id) {
      if HasChild(tasks, id) && tasks[0].owner != id {
        var k :| 0 <= k < |tasks| && tasks[k].owner == id;
        assert tasks[1..][k - 1] == tasks[k];
      }
      if HasChild(tasks[1..], id) {
        var k :| 0 <= k < |tasks[1..]| && tasks[1..][k].owner == id;
        assert tasks[k + 1] == tasks[1..][k];
      }
    }
  }

  lemma UnfinishedChildSplit(tasks: seq<Progress>)
    requires |tasks| > 0
    ensures forall id :: UnfinishedChild(tasks, id) <==>
              (tasks[0].owner == id && !tasks[0].state.IsFinished()) || UnfinishedChild(tasks[1..], id)
  {
    forall id ensures UnfinishedChild(tasks, id) <==>
                      (tasks[0].owner == id && !tasks[0].state.IsFinished()) || UnfinishedChild(tasks[1..], id) {
      if UnfinishedChild(tasks, id) && !(tasks[0].owner == id && !tasks[0].state.IsFinished()) {
        var k :| 0 <= k < |tasks| && tasks[k].owner == id && !tasks[k].state.IsFinished();
        assert tasks[1..][k - 1] == tasks[k];
      }
      if UnfinishedChild(tasks[1..], id) {
        var k :| 0 <= k < |tasks[1..]| && tasks[1..][k].owner == id && !tasks[1..][k].state.IsFinished();
        assert tasks[k + 1] == tasks[1..][k];
      }
    }
  }

  /** kill: mark the container canceled and kill every child, whatever its state. */
  function Kill(c: Container, failing: set<TaskId>): (r: Step)
    ensures r.c == c.(canceled := true)
    ensures forall id :: KillCalled(id) in r.events <==> HasChild(c.tasks, id)
    ensures forall id :: ChildCallFailed(id) in r.events <==> HasChild(c.tasks, id) && id in failing
    ensures forall e :: e in r.events ==> e.KillCalled? || e.ChildCallFailed?
    ensures Killed(r.events) == Owners(c.tasks)
  {
    Step(c.(canceled := true), KillCalls(c.tasks, failing))
  }

  /** cancel: mark the container canceled and cancel the children that have not finished. */
  function Cancel(c: Container, failing: set<TaskId>): (r: Step)
    ensures r.c == c.(canceled := true)
    ensures forall id :: CancelCalled(id) in r.events <==> UnfinishedChild(c.tasks, id)
    ensures forall id :: ChildCallFailed(id) in r.events <==> UnfinishedChild(c.tasks, id) && id in failing
    ensures forall e :: e in r.events ==> e.CancelCalled? || e.ChildCallFailed?
    ensures Cancelled(r.events) == UnfinishedOwners(c.tasks)
  {
    Step(c.(canceled := true), CancelCalls(c.tasks, failing))
  }

  /** getTasks: a copy of the current children, in order. */
  function GetTasks(c: Container): (r: seq<Progress>)
    ensures r == c.tasks
  {
    c.tasks
  }

  /** getTimeout: containers have no timeout of their own; -1 disables the watchdog for them. */
  function GetTimeout(c: Container): (r: int)
    ensures r == -1
  {
    -1
  }
}

=== FILE: container_init.dfy ===
/**
 * The initialisation steps of AbstractContainerExecution that turn the
 * algorithm instances of a sub-workflow into execution tasks and seed rank
 * propagation.
 */
module ContainerInit {
  import opened Computation

  /** Identity of an algorithm instance of the workflow. */
  type InstanceId = nat

  /** What initialisation reads of an algorithm instance. */
  datatype AlgoInstance = AlgoInstance(
    id: InstanceId,
    container: Option<InstanceId>,
    disabled: bool,
    incomingConnections: nat)

  /** Executions created for the instances, and the disabled instances the user is warned about. */
  datatype SubExecutions = SubExecutions(executions: map<InstanceId, TaskId>, disabledWarnings: seq<InstanceId>)

  /** The instance is not inside another container, so this container creates its execution. */
  predicate ManagedHere(self: InstanceId, sub: AlgoInstance) {
    sub.container == None || sub.container == Some(self)
  }

  /** This container must ask the instance for an execution. */
  predicate Executable(self: InstanceId, sub: AlgoInstance) {
    ManagedHere(self, sub) && !sub.disabled
  }

  predicate SomeUnexecutable(self: InstanceId, subs: seq<AlgoInstance>, execute: InstanceId -> Option<TaskId>) {
    exists i :: 0 <= i < |subs| && Executable(self, subs[i]) && execute(subs[i].id).None?
  }

  function ExecutableIds(self: InstanceId, subs: seq<AlgoInstance>): set<InstanceId> {
    set i | 0 <= i < |subs| && Executable(self, subs[i]) :: subs[i].id
  }

  predicate WarnedAbout(self: InstanceId, subs: seq<AlgoInstance>, id: InstanceId) {
    exists i :: 0 <= i < |subs| && ManagedHere(self, subs[i]) && subs[i].disabled && subs[i].id == id
  }

  lemma LastSplit(self: InstanceId, subs: seq<AlgoInstance>, execute: InstanceId -> Option<TaskId>)
    requires |subs| > 0
    ensures var init, last := subs[..|subs| - 1], subs[|subs| - 1];
            && (SomeUnexecutable(self, subs, execute) <==>
                  SomeUnexecutable(self, init, execute) || (Executable(self, last) && execute(last.id).None?))
            && ExecutableIds(self, subs) ==
                 ExecutableIds(self, init) + (if Executable(self, last) then {last.id} else {})
            && forall id :: WarnedAbout(self, subs, id) <==>
                 WarnedAbout(self, init, id) || (ManagedHere(self, last) && last.disabled && last.id == id)
  {
    var init := subs[..|subs| - 1];
    assert forall i :: 0 <= i < |init| ==> init[i] == subs[i];
  }

  /**
   * initCreateExecutionsForSubAlgos: ask every instance managed here and not
   * disabled for its execution; warn about disabled ones; an instance that
   * returns no execution raises a ProgramException. `execute` stands for
   * `IAlgoInstance.execute`.
   */
  function InitCreateExecutionsForSubAlgos(
    self: InstanceId, subs: seq<AlgoInstance>, execute: InstanceId -> Option<TaskId>): (r: Result<SubExecutions>)
    ensures r.Err? <==> SomeUnexecutable(self, subs, execute)
    ensures r.Err? ==> r.failure.ProgramException?
    ensures r.Ok? ==> r.value.executions.Keys == ExecutableIds(self, subs)
    ensures r.Ok? ==> forall k :: k in r.value.executions ==> execute(k) == Some(r.value.executions[k])
    ensures r.Ok? ==> forall id :: id in r.value.disabledWarnings <==> WarnedAbout(self, subs, id)
    decreases |subs|
  {
    if |subs| == 0 then Ok(SubExecutions(map[], []))
    else
      var sub := subs[|subs| - 1];
      LastSplit(self, subs, execute);
      match InitCreateExecutionsForSubAlgos(self, subs[..|subs| - 1], execute)
      case Err(f) => Err(f)
      case Ok(done) =>
        if !ManagedHere(self, sub) then Ok(done)
        else if sub.disabled then Ok(done.(disabledWarnings := done.disabledWarnings + [sub.id]))
        else
          match execute(sub.id)
          case None => Err(ProgramException("an algorithm was unable to prepare an execution"))
          case Some(e) => Ok(done.(executions := done.executions[sub.id := e]))
  }

  /** The instance has no incoming connection and an execution was created for it. */
  predicate RankSource(sub: AlgoInstance, instance2exec: map<InstanceId, TaskId>) {
    sub.incomingConnections == 0 && sub.id in instance2exec
  }

  predicate SeedsRank(subs: seq<AlgoInstance>, instance2exec: map<InstanceId, TaskId>, e: TaskId) {
    exists i :: 0 <= i < |subs| && RankSource(subs[i], instance2exec) && instance2exec[subs[i].id] == e
  }

  /**
   * initPropagateRanks: start rank propagation, with rank 1 and an empty
   * visited set, from the execution of every instance that has no incoming
   * connection; instances without an execution (disabled) are skipped.
   */
  function InitPropagateRanks(subs: seq<AlgoInstance>, instance2exec: map<InstanceId, TaskId>): (r: seq<RankCall>)
    ensures forall k :: 0 <= k < |r| ==> r[k].rank == 1 && r[k].visited == {}
    ensures forall e :: RankCall(e, 1, {}) in r <==> SeedsRank(subs, instance2exec, e)
    ensures |r| <= |subs|
  {
    if |subs| == 0 then []
    else
      var rest := InitPropagateRanks(subs[1..], instance2exec);
      assert forall e :: SeedsRank(subs, instance2exec, e) <==>
        (RankSource(subs[0], instance2exec) && instance2exec[subs[0].id] == e) || SeedsRank(subs[1..], instance2exec, e)
      by {
        forall e ensures SeedsRank(subs, instance2exec, e) <==>
          (RankSource(subs[0], instance2exec) && instance2exec[subs[0].id] == e) || SeedsRank(subs[1..], instance2exec, e)
        {
          if SeedsRank(subs, instance2exec, e) && !(RankSource(subs[0], instance2exec) && instance2exec[subs[0].id] == e) {
            var i :| 0 <= i < |subs| && RankSource(subs[i], instance2exec) && instance2exec[subs[i].id] == e;
            assert subs[1..][i - 1] == subs[i];
          }
          if SeedsRank(subs[1..], instance2exec, e) {
            var i :| 0 <= i < |subs[1..]| && RankSource(subs[1..][i], instance2exec) && instance2exec[subs[1..][i].id] == e;
            assert subs[i + 1] == subs[1..][i];
          }
        }
      }
      if RankSource(subs[0], instance2exec) then
        [RankCall(instance2exec[subs[0].id], 1, {})] + rest
      else rest
  }

  /**
   * The calls follow the order of the instances, one per rank source: the
   * calls for a list of instances are those for its first part followed by
   * those for the rest.
   */
  lemma {:induction false} InitPropagateRanksAppend(a: seq<AlgoInstance>, b: seq<AlgoInstance>,
                                                    instance2exec: map<InstanceId, TaskId>)
    ensures InitPropagateRanks(a + b, instance2exec)
            == InitPropagateRanks(a, instance2exec) + InitPropagateRanks(b, instance2exec)
  {
    if |a| > 0 {
      assert (a + b)[0] == a[0];
      assert (a + b)[1..] == a[1..] + b;
      InitPropagateRanksAppend(a[1..], b, instance2exec);
    } else {
      assert a + b == b;
    }
  }
}

=== FILE: container_properties.dfy ===
/**
 * Properties of the container transitions that relate several calls, or a
 * transition to the children it aggregates.
 */
module ContainerProperties {
  import opened Computation
  import opened ContainerExecution

  // ---------------------------------------------------------------------
  // Progress counters
  // ---------------------------------------------------------------------

  lemma {:induction false} SumAppend(a: seq<Progress>, b: seq<Progress>, f: Progress -> int)
    ensures Sum(a + b, f) == Sum(a, f) + Sum(b, f)
    decreases |b|
  {
    if |b| == 0 {
      assert a + b == a;
    } else {
      assert (a + b)[..|a + b| - 1] == a + b[..|b| - 1];
      SumAppend(a, b[..|b| - 1], f);
    }
  }

  lemma {:induction false} DoneSumAtMostToDoSum(tasks: seq<Progress>)
    requires forall i :: 0 <= i < |tasks| ==> WellFormed(tasks[i])
    ensures Sum(tasks, DoneShare) <= Sum(tasks, ToDoShare)
    decreases |tasks|
  {
    if |tasks| > 0 {
      var init := tasks[..|tasks| - 1];
      assert forall i :: 0 <= i < |init| ==> init[i] == tasks[i];
      DoneSumAtMostToDoSum(init);
      assert WellFormed(tasks[|tasks| - 1]);
    }
  }

  /** With every child reporting 0 <= done <= total, the aggregate never claims more done than to do. */
  lemma TotalDoneAtMostTotalToDo(c: Container)
    requires forall i :: 0 <= i < |c.tasks| ==> WellFormed(c.tasks[i])
    ensures Aggregate(c).totalDone <= Aggregate(c).totalToDo
  {
    DoneSumAtMostToDoSum(c.tasks);
  }

  // ---------------------------------------------------------------------
  // Aggregation outcome
  // ---------------------------------------------------------------------

  /**
   * While some child runs and nothing failed or was cancelled (including
   * children cleaned earlier), auto-update only writes the aggregated
   * counters; the container's state stays and no hook runs.
   */
  lemma UpdateWhileChildrenRun(c: Container)
    requires c.autoUpdateProgressFromChildren
    requires SomeChildUnfinished(c.tasks)
    requires !Aggregate(c).somethingFailed && !Aggregate(c).somethingCanceled
    ensures UpdateProgressFromChildren(c).events == []
    ensures UpdateProgressFromChildren(c).c.progress ==
              c.progress.(total := Aggregate(c).totalToDo, done := Aggregate(c).totalDone)
  {
  }

  /**
   * Otherwise, with auto-finish on, the hook runs with the terminal state
   * (seeing the container's previous state) and that state becomes the
   * container's own: failure first, then cancel, then OK.
   */
  lemma UpdateFinishes(c: Container)
    requires c.autoFinishWhenChildrenFinished
    requires !(c.autoUpdateProgressFromChildren && SomeChildUnfinished(c.tasks)
               && !Aggregate(c).somethingFailed && !Aggregate(c).somethingCanceled)
    ensures var r := UpdateProgressFromChildren(c);
            && r.events == [HookFinished(r.c.progress.state, c.progress.state)]
            && (r.c.progress.state == FinishedFailure <==>
                  Aggregate(c).somethingFailed && !c.ignoreFailuresFromChildren)
            && (r.c.progress.state == FinishedCancel <==>
                  !(Aggregate(c).somethingFailed && !c.ignoreFailuresFromChildren)
                  && Aggregate(c).somethingCanceled && !c.ignoreCancelFromChildren)
            && r.c.progress.total == c.progress.total
            && r.c.progress.done == c.progress.done
  {
  }

  /**
   * A failed child, with failures not ignored, makes the container fail at
   * the next review, whatever its siblings are doing.
   */
  lemma FailedChildForcesFailure(c: Container, i: nat)
    requires c.autoFinishWhenChildrenFinished && !c.ignoreFailuresFromChildren
    requires i < |c.tasks| && c.tasks[i].state == FinishedFailure
    ensures UpdateProgressFromChildren(c).c.progress.state == FinishedFailure
    ensures UpdateProgressFromChildren(c).events == [HookFinished(FinishedFailure, c.progress.state)]
  {
    assert SomeChildIn(c.tasks, FinishedFailure);
  }

  /**
   * A child's FINISHED_FAILURE notification, with auto-finish on and failures
   * not ignored, ends the container FINISHED_FAILURE, whatever the container
   * had seen of that child before.
   */
  lemma NotifiedFailureEndsContainer(c: Container, p: Progress)
    requires c.autoFinishWhenChildrenFinished && !c.ignoreFailuresFromChildren
    requires p.state == FinishedFailure && HasChild(c.tasks, p.owner)
    ensures ComputationStateChanged(c, p).c.progress.state == FinishedFailure
    ensures ComputationStateChanged(c, p).events == [HookFinished(FinishedFailure, c.progress.state)]
  {
    var seen := c.(tasks := Refresh(c.tasks, p));
    var i :| 0 <= i < |c.tasks| && c.tasks[i].owner == p.owner;
    FailedChildForcesFailure(seen, i);
  }

  /**
   * Nothing guards the container's own state: once a failure is remembered
   * in the sticky flag, every later finished-child notification runs the
   * finished hook again and sets FINISHED_FAILURE again, even when the
   * container is already FINISHED_FAILURE (the hook then sees that state).
   */
  lemma RepeatedFailureFinishesAgain(c: Container, p: Progress)
    requires c.autoFinishWhenChildrenFinished && !c.ignoreFailuresFromChildren
    requires c.somethingFailed
    requires p.state.IsFinished() && HasChild(c.tasks, p.owner)
    ensures ComputationStateChanged(c, p).c.progress.state == FinishedFailure
    ensures ComputationStateChanged(c, p).events == [HookFinished(FinishedFailure, c.progress.state)]
  {
    var seen := c.(tasks := Refresh(c.tasks, p));
    assert Aggregate(seen).somethingFailed;
  }

  /**
   * With auto-update off and auto-finish on, every finished-child
   * notification ends the container, even while siblings still run: the hook
   * gets the classification of what the review found, next to the state the
   * container had until then.
   */
  lemma {:induction false} AutoFinishAloneEndsOnEveryNotification(c: Container, p: Progress)
    requires !c.autoUpdateProgressFromChildren && c.autoFinishWhenChildrenFinished
    requires p.state.IsFinished() && HasChild(c.tasks, p.owner)
    ensures var s := Aggregate(c.(tasks := Refresh(c.tasks, p)));
            var ourState := Classify(s.somethingFailed, s.somethingCanceled,
                                     c.ignoreFailuresFromChildren, c.ignoreCancelFromChildren);
            && ComputationStateChanged(c, p).c.progress == c.progress.(state := ourState)
            && ComputationStateChanged(c, p).events == [HookFinished(ourState, c.progress.state)]
  {
  }

  /**
   * A container can finish twice. Auto-update off, two running children:
   * the first child finishing OK ends the container FINISHED_OK while its
   * sibling still runs; the sibling then failing ends it again, now
   * FINISHED_FAILURE, and the hook runs a second time.
   */
  lemma OkThenFailingSiblingFinishesTwice()
    ensures var c := NewContainer(Progress(100, Started, 0, 0)).(
                       autoUpdateProgressFromChildren := false,
                       tasks := [Progress(1, Started, 0, 1), Progress(2, Started, 0, 1)]);
            var first := ComputationStateChanged(c, Progress(1, FinishedOk, 1, 1));
            var second := ComputationStateChanged(first.c, Progress(2, FinishedFailure, 0, 1));
            && first.c.progress.state == FinishedOk
            && first.events == [HookFinished(FinishedOk, Started)]
            && second.c.progress.state == FinishedFailure
            && second.events == [HookFinished(FinishedFailure, FinishedOk)]
  {
    var c := NewContainer(Progress(100, Started, 0, 0)).(
               autoUpdateProgressFromChildren := false,
               tasks := [Progress(1, Started, 0, 1), Progress(2, Started, 0, 1)]);
    var p1 := Progress(1, FinishedOk, 1, 1);
    var seen1 := c.(tasks := Refresh(c.tasks, p1));
    assert seen1.tasks == [p1, Progress(2, Started, 0, 1)];
    assert !SomeChildIn(seen1.tasks, FinishedFailure) && !SomeChildIn(seen1.tasks, FinishedCancel);
    assert HasChild(c.tasks, 1) by { assert c.tasks[0].owner == 1; }
    AutoFinishAloneEndsOnEveryNotification(c, p1);
    var first := ComputationStateChanged(c, p1);
    var p2 := Progress(2, FinishedFailure, 0, 1);
    assert first.c.tasks == seen1.tasks;
    var seen2 := first.c.(tasks := Refresh(first.c.tasks, p2));
    assert seen2.tasks[1] == p2;
    assert HasChild(first.c.tasks, 2) by { assert first.c.tasks[1].owner == 2; }
    NotifiedFailureEndsContainer(first.c, p2);
  }

  /**
   * Once every child has finished and neither sticky flag is set (from a
   * cleaned child or an earlier review), the container ends FINISHED_OK
   * exactly when every child finished OK or ended in a way the
   * configuration ignores.
   */
  lemma ContainerOkIffChildrenOk(c: Container)
    requires c.autoFinishWhenChildrenFinished
    requires !SomeChildUnfinished(c.tasks)
    requires !c.somethingFailed && !c.somethingCanceled
    ensures UpdateProgressFromChildren(c).c.progress.state == FinishedOk <==>
              forall i :: 0 <= i < |c.tasks| ==>
                || c.tasks[i].state == FinishedOk
                || (c.tasks[i].state == FinishedFailure && c.ignoreFailuresFromChildren)
                || (c.tasks[i].state == FinishedCancel && c.ignoreCancelFromChildren)
  {
    var st := UpdateProgressFromChildren(c).c.progress.state;
    if st == FinishedOk {
      forall i | 0 <= i < |c.tasks|
        ensures || c.tasks[i].state == FinishedOk
                || (c.tasks[i].state == FinishedFailure && c.ignoreFailuresFromChildren)
                || (c.tasks[i].state == FinishedCancel && c.ignoreCancelFromChildren)
      {
        assert c.tasks[i].state.IsFinished();
        if c.tasks[i].state == FinishedFailure {
          assert SomeChildIn(c.tasks, FinishedFailure);
        } else if c.tasks[i].state == FinishedCancel {
          assert SomeChildIn(c.tasks, FinishedCancel);
        }
      }
    }
  }

  /** With the default configuration, a container ends OK exactly when every child ended OK. */
  lemma StrictContainerOkIffAllChildrenOk(c: Container)
    requires c.autoFinishWhenChildrenFinished
    requires !c.ignoreFailuresFromChildren && !c.ignoreCancelFromChildren
    requires !SomeChildUnfinished(c.tasks)
    requires !c.somethingFailed && !c.somethingCanceled
    ensures UpdateProgressFromChildren(c).c.progress.state == FinishedOk <==>
              forall i :: 0 <= i < |c.tasks| ==> c.tasks[i].state == FinishedOk
  {
    ContainerOkIffChildrenOk(c);
  }

  // ---------------------------------------------------------------------
  // Registration and cleaning
  // ---------------------------------------------------------------------

  /** Adding the same task twice is the same as adding it once: the second call does nothing. */
  lemma AddTaskIdempotent(c: Container, t: Progress, runner1: bool, runner2: bool)
    ensures var once := AddTask(c, t, runner1).c;
            AddTask(once, t, runner2) == Step(once, [])
  {
  }

  /** Where each remaining child sat before the removal at `i`. */
  lemma RemovedIndices(tasks: seq<Progress>, i: nat)
    requires i < |tasks|
    ensures var r := tasks[..i] + tasks[i + 1..];
            |r| == |tasks| - 1 && forall k :: 0 <= k < |r| ==> r[k] == tasks[if k < i then k else k + 1]
  {
  }

  lemma RemovedNotPresent(tasks: seq<Progress>, i: nat)
    requires DistinctOwners(tasks) && i < |tasks|
    ensures !HasChild(tasks[..i] + tasks[i + 1..], tasks[i].owner)
  {
    var r := tasks[..i] + tasks[i + 1..];
    RemovedIndices(tasks, i);
    forall k | 0 <= k < |r| ensures r[k].owner != tasks[i].owner {
      assert r[k] == tasks[if k < i then k else k + 1];
    }
  }

  lemma RemovedStaysDistinct(tasks: seq<Progress>, i: nat)
    requires DistinctOwners(tasks) && i < |tasks|
    ensures DistinctOwners(tasks[..i] + tasks[i + 1..])
  {
    var r := tasks[..i] + tasks[i + 1..];
    RemovedIndices(tasks, i);
    forall k1, k2 | 0 <= k1 < k2 < |r| ensures r[k1].owner != r[k2].owner {
      assert r[k1] == tasks[if k1 < i then k1 else k1 + 1];
      assert r[k2] == tasks[if k2 < i then k2 else k2 + 1];
    }
  }

  lemma RemovedKeepsOthers(tasks: seq<Progress>, i: nat, other: TaskId)
    requires i < |tasks| && other != tasks[i].owner
    ensures HasChild(tasks[..i] + tasks[i + 1..], other) <==> HasChild(tasks, other)
  {
    var r := tasks[..i] + tasks[i + 1..];
    RemovedIndices(tasks, i);
    if HasChild(tasks, other) {
      var k :| 0 <= k < |tasks| && tasks[k].owner == other;
      var k' := if k < i then k else k - 1;
      assert r[k'] == tasks[k];
    }
    if HasChild(r, other) {
      var k :| 0 <= k < |r| && r[k].owner == other;
      assert r[k] == tasks[if k < i then k else k + 1];
    }
  }

  /**
   * Among distinct children, removing task `id` removes exactly that child:
   * one fewer child, every other child kept, and the children stay distinct.
   */
  lemma RemoveChildExact(tasks: seq<Progress>, id: TaskId)
    requires DistinctOwners(tasks) && HasChild(tasks, id)
    ensures var r := RemoveChild(tasks, id);
            && |r| == |tasks| - 1
            && !HasChild(r, id)
            && DistinctOwners(r)
            && forall other :: other != id ==> (HasChild(r, other) <==> HasChild(tasks, other))
  {
    var i := FirstIndex(tasks, id);
    RemovedIndices(tasks, i);
    RemovedNotPresent(tasks, i);
    RemovedStaysDistinct(tasks, i);
    forall other | other != id ensures HasChild(RemoveChild(tasks, id), other) <==> HasChild(tasks, other) {
      RemovedKeepsOthers(tasks, i, other);
    }
  }

  /**
   * Cleaning a child of a container whose children are distinct removes
   * exactly that child: one fewer child, every other child kept, and the
   * children stay distinct.
   */
  lemma CleaningRemovesExactlyThatChild(c: Container, task: Progress)
    requires DistinctOwners(c.tasks)
    requires task.state.IsFinished() && HasChild(c.tasks, task.owner)
    ensures var r := TaskCleaning(c, task).value;
            && |r.tasks| == |c.tasks| - 1
            && !HasChild(r.tasks, task.owner)
            && DistinctOwners(r.tasks)
            && forall id :: id != task.owner ==> (HasChild(r.tasks, id) <==> HasChild(c.tasks, id))
  {
    RemoveChildExact(c.tasks, task.owner);
  }

  /**
   * Cleaning a child moves its contribution into the carried-over counters:
   * totalDone changes by (done - 1) and totalToDo by (done - (total + 1)).
   * Progress is therefore kept only when the child reported done >= 1.
   */
  lemma CleaningAccounting(c: Container, task: Progress)
    requires task.state.IsFinished() && HasChild(c.tasks, task.owner)
    requires c.tasks[FirstIndex(c.tasks, task.owner)] == task
    ensures var r := TaskCleaning(c, task).value;
            && Aggregate(r).totalDone == Aggregate(c).totalDone - 1 + task.done
            && Aggregate(r).totalToDo == Aggregate(c).totalToDo - (task.total + 1) + task.done
  {
    var i := FirstIndex(c.tasks, task.owner);
    var a, b := c.tasks[..i], c.tasks[i + 1..];
    assert c.tasks == a + [task] + b;
    assert TaskCleaning(c, task).value.tasks == a + b;
    SumAppend(a + [task], b, DoneShare);
    SumAppend(a + [task], b, ToDoShare);
    SumAppend(a, b, DoneShare);
    SumAppend(a, b, ToDoShare);
    assert (a + [task])[..|a + [task]| - 1] == a;
  }

  /** A failed child that was cleaned is still remembered: the container fails at its next review. */
  lemma CleanedFailureStillFails(c: Container, task: Progress)
    requires c.autoFinishWhenChildrenFinished && !c.ignoreFailuresFromChildren
    requires task.state == FinishedFailure
    ensures TaskCleaning(c, task).Ok?
    ensures UpdateProgressFromChildren(TaskCleaning(c, task).value).c.progress.state == FinishedFailure
  {
  }

  /** cancel leaves finished children alone: a finished child (children distinct) receives no cancel. */
  lemma CancelLeavesFinishedAlone(c: Container, i: nat, failing: set<TaskId>)
    requires DistinctOwners(c.tasks)
    requires i < |c.tasks| && c.tasks[i].state.IsFinished()
    ensures CancelCalled(c.tasks[i].owner) !in Cancel(c, failing).events
    ensures KillCalled(c.tasks[i].owner) in Kill(c, failing).events
  {
    assert HasChild(c.tasks, c.tasks[i].owner);
  }
}

=== FILE: reduce_connection.dfy ===
/**
 * ConnectionExecFromIterationToReduce: the executable edge from one branch of
 * an iteration (the producer) to a reduce algorithm (the consumer). On every
 * state change of the producer it does exactly one of: ignore the change,
 * clear its value and cancel the consumer, clear its value, or read the
 * producer's result and deliver it tagged with the producer's parent.
 */
module IterationToReduce {
  import opened Computation

  /** Identity of an output slot of an algorithm. */
  type OutputId = nat

  /** The connection: producer task and output, consumer task, and the value last held (null = None). */
  datatype Connection<V> = Connection(from: TaskId, fromOutput: OutputId, to: TaskId, value: Option<V>)

  /**
   * What the connection reads of its producer: the task, its parent (the
   * iteration branch), and its published result map, absent when the
   * producer publishes no result object.
   */
  datatype Producer<V> = Producer(id: TaskId, parent: Option<TaskId>, results: Option<map<OutputId, V>>)

  /** A call the connection makes. */
  datatype Effect<V> =
    | CancelConsumer(consumer: TaskId)
      /** `errorUser("received a null value...")` */
    | ReportNullValue
      /** `to.receiveInput(parent, this, value)` */
    | ReceiveInput(consumer: TaskId, branch: Option<TaskId>, value: Option<V>)

  /** The connection after reacting, and the calls made while reacting. */
  datatype Reaction<V> = Reaction(conn: Connection<V>, effects: seq<Effect<V>>)

  /** Number of deliveries to the consumer among the effects. */
  function Deliveries<V>(effects: seq<Effect<V>>): nat {
    if |effects| == 0 then 0
    else (if effects[0].ReceiveInput? then 1 else 0) + Deliveries(effects[1..])
  }

  /** Number of cancellations of the consumer among the effects. */
  function Cancellations<V>(effects: seq<Effect<V>>): nat {
    if |effects| == 0 then 0
    else (if effects[0].CancelConsumer? then 1 else 0) + Cancellations(effects[1..])
  }

  /**
   * computationStateChanged(progress), with `from` the producer's current
   * snapshot and `p` the progress object that notified.
   */
  function ComputationStateChanged<V>(conn: Connection<V>, from: Producer<V>, p: Progress): (r: Result<Reaction<V>>)
    requires from.id == conn.from
    // a notification from another progress object is ignored
    ensures p.owner != conn.from ==> r == Ok(Reaction(conn, []))
    // the only exception: a successful producer that publishes no result
    ensures r.Err? <==> p.owner == conn.from && p.state == FinishedOk && from.results.None?
    ensures r.Err? ==> r.failure.ProgramException?
    // endpoints never change; only the held value does
    ensures r.Ok? ==> r.value.conn.(value := conn.value) == conn
    // failure or cancel: clear, cancel the consumer, deliver nothing
    ensures p.owner == conn.from && (p.state == FinishedCancel || p.state == FinishedFailure) ==>
              r == Ok(Reaction(conn.(value := None), [CancelConsumer(conn.to)]))
    // not finished: clear only
    ensures p.owner == conn.from && !p.state.IsFinished() ==> r == Ok(Reaction(conn.(value := None), []))
    // success: hold the producer's value for the source output and deliver it once, tagged with the branch
    ensures p.owner == conn.from && p.state == FinishedOk && from.results.Some? ==>
              && r.Ok?
              && r.value.conn.value == Get(from.results.value, conn.fromOutput)
              && Deliveries(r.value.effects) == 1
              && Cancellations(r.value.effects) == 0
              && ReceiveInput(conn.to, from.parent, r.value.conn.value) in r.value.effects
              && (ReportNullValue in r.value.effects <==> r.value.conn.value.None?)
  {
    if p.owner != conn.from then Ok(Reaction(conn, []))
    else if p.state == FinishedCancel || p.state == FinishedFailure then
      Ok(Reaction(conn.(value := None), [CancelConsumer(conn.to)]))
    else if p.state != FinishedOk then
      Ok(Reaction(conn.(value := None), []))
    else
      match from.results
      case None =>
        Err(ProgramException("an executable announced a finished with success, but does not publish results."))
      case Some(results) =>
        var value := Get(results, conn.fromOutput);
        var report: seq<Effect<V>> := if value.None? then [ReportNullValue] else [];
        var effects := report + [ReceiveInput(conn.to, from.parent, value)];
        assert Deliveries(effects) == 1 && Cancellations(effects) == 0 by {
          var tail: seq<Effect<V>> := [ReceiveInput(conn.to, from.parent, value)];
          assert tail[1..] == [];
          assert Deliveries(tail) == 1 && Cancellations(tail) == 0;
          if value.None? {
            assert effects[0] == ReportNullValue;
            assert effects[1..] == tail;
          } else {
            assert effects == tail;
          }
        }
        Ok(Reaction(conn.(value := value), effects))
  }

  /** forceValue: not supported by this kind of connection; it always raises. */
  function ForceValue<V>(conn: Connection<V>, value: Option<V>): (r: Result<Connection<V>>)
    ensures r == Err(NotImplementedException)
  {
    Err(NotImplementedException)
  }

  /** propagateRank: no rank flows through this connection, whatever the rank and visited set. */
  function PropagateRank<V>(conn: Connection<V>, rank: int, visited: set<TaskId>): (r: seq<RankCall>)
    ensures r == []
  {
    []
  }

  /** One iteration branch: its producer snapshot, and the final progress it notifies with. */
  datatype Branch<V> = Branch(conn: Connection<V>, from: Producer<V>, last: Progress)

  predicate Consistent<V>(b: Branch<V>) {
    b.from.id == b.conn.from && b.last.owner == b.conn.from && b.last.state.IsFinished()
      && (b.last.state == FinishedOk ==> b.from.results.Some?)
  }

  function CountState<V>(branches: seq<Branch<V>>, s: ComputationState): nat {
    if |branches| == 0 then 0
    else (if branches[0].last.state == s then 1 else 0) + CountState(branches[1..], s)
  }

  /** The effects of notifying each branch's connection once with its final state, in order. */
  function NotifyAll<V>(branches: seq<Branch<V>>): (effects: seq<Effect<V>>)
    requires forall k :: 0 <= k < |branches| ==> Consistent(branches[k])
  {
    if |branches| == 0 then []
    else
      var b := branches[0];
      assert Consistent(b);
      ComputationStateChanged(b.conn, b.from, b.last).value.effects + NotifyAll(branches[1..])
  }

  lemma {:induction false} DeliveriesAppend<V>(a: seq<Effect<V>>, b: seq<Effect<V>>)
    ensures Deliveries(a + b) == Deliveries(a) + Deliveries(b)
    ensures Cancellations(a + b) == Cancellations(a) + Cancellations(b)
  {
    if |a| == 0 {
      assert a + b == b;
    } else {
      assert (a + b)[0] == a[0];
      assert (a + b)[1..] == a[1..] + b;
      DeliveriesAppend(a[1..], b);
    }
  }

  /**
   * Across all branches of an iteration, the reduce consumer receives one
   * value per branch that finished OK and one cancellation per branch that
   * failed or was cancelled.
   */
  lemma {:induction false} ReduceReceivesOnePerSuccessfulBranch<V>(branches: seq<Branch<V>>)
    requires forall k :: 0 <= k < |branches| ==> Consistent(branches[k])
    ensures Deliveries(NotifyAll(branches)) == CountState(branches, FinishedOk)
    ensures Cancellations(NotifyAll(branches)) ==
              CountState(branches, FinishedCancel) + CountState(branches, FinishedFailure)
  {
    if |branches| > 0 {
      var b := branches[0];
      assert Consistent(b);
      var head := ComputationStateChanged(b.conn, b.from, b.last).value.effects;
      DeliveriesAppend(head, NotifyAll(branches[1..]));
      ReduceReceivesOnePerSuccessfulBranch(branches[1..]);
    }
  }
}

=== FILE: text_message.dfy ===
/**
 * TextMessage: an immutable message for the user or the developer, with a
 * repeat counter (the only mutable field) and an ordering by timestamp.
 */
module TextMessages {
  import opened Computation

  const MinInt32: int := -0x8000_0000
  const MaxInt32: int := 0x7fff_ffff

  /** Java `int` arithmetic: reduce an integer to the 32-bit two's-complement range. */
  function WrapInt32(x: int): (r: int)
    ensures MinInt32 <= r <= MaxInt32
    ensures MinInt32 <= x <= MaxInt32 ==> r == x
    ensures (r - x) % 0x1_0000_0000 == 0
  {
    (x - MinInt32) % 0x1_0000_0000 + MinInt32
  }

  /** Message level and audience: enumerations defined outside this model, kept by their ordinal. */
  datatype MessageLevel = MessageLevel(ordinal: nat)
  datatype MessageAudience = MessageAudience(ordinal: nat)

  /** The emitting Java class: its full name and its simple name. */
  datatype Emitter = Emitter(name: string, simpleName: string)

  /** An attached Java throwable. */
  datatype Throwable = Throwable(message: string)

  datatype TextMessage = TextMessage(
    level: MessageLevel,
    audience: MessageAudience,
    message: string,
    timestamp: int,
    count: int,
    exception: Option<Throwable>,
    fromShort: string,
    emitter: Emitter)

  /** The two messages agree on every field but the counter. */
  predicate SameExceptCount(a: TextMessage, b: TextMessage) {
    a.(count := 0) == b.(count := 0)
  }

  /**
   * The constructor with every argument. `now` stands for the
   * System.currentTimeMillis() reading taken at construction.
   */
  function NewFull(level: MessageLevel, audience: MessageAudience, fromShort: string, emitter: Emitter,
                   message: string, exception: Option<Throwable>, now: int): (m: TextMessage)
    ensures m.count == 1 && m.timestamp == now
    ensures m.level == level && m.audience == audience && m.message == message
    ensures m.fromShort == fromShort && m.emitter == emitter && m.exception == exception
  {
    TextMessage(level, audience, message, now, 1, exception, fromShort, emitter)
  }

  /** The constructor with a short name and no throwable: the exception is null. */
  function NewWithShortName(level: MessageLevel, audience: MessageAudience, fromShort: string, emitter: Emitter,
                            message: string, now: int): (m: TextMessage)
    ensures m.count == 1 && m.timestamp == now
    ensures m.exception == None
    ensures m.fromShort == fromShort
    ensures SameExceptCount(m, NewFull(level, audience, fromShort, emitter, message, None, now))
  {
    TextMessage(level, audience, message, now, 1, None, fromShort, emitter)
  }

  /** The constructor with a throwable and no short name: the short name is the emitter's simple name. */
  function NewWithException(level: MessageLevel, audience: MessageAudience, emitter: Emitter,
                            message: string, exception: Option<Throwable>, now: int): (m: TextMessage)
    ensures m.count == 1 && m.timestamp == now
    ensures m.exception == exception
    ensures m.fromShort == emitter.simpleName
    ensures SameExceptCount(m, NewFull(level, audience, emitter.simpleName, emitter, message, exception, now))
  {
    TextMessage(level, audience, message, now, 1, exception, emitter.simpleName, emitter)
  }

  /** The shortest constructor: no throwable, and the short name taken from the emitter. */
  function New(level: MessageLevel, audience: MessageAudience, emitter: Emitter,
               message: string, now: int): (m: TextMessage)
    ensures m.count == 1 && m.timestamp == now
    ensures m.exception == None
    ensures m.fromShort == emitter.simpleName
    ensures SameExceptCount(m, NewFull(level, audience, emitter.simpleName, emitter, message, None, now))
  {
    TextMessage(level, audience, message, now, 1, None, emitter.simpleName, emitter)
  }

  /** addIncrementCount: `count++` on a Java int; nothing else changes. */
  function AddIncrementCount(m: TextMessage): (r: TextMessage)
    ensures SameExceptCount(r, m)
    ensures MinInt32 <= m.count < MaxInt32 ==> r.count == m.count + 1
    ensures m.count == MaxInt32 ==> r.count == MinInt32
  {
    m.(count := WrapInt32(m.count + 1))
  }

  /** getCount: the number of times the message was emitted, 1 at construction. */
  function GetCount(m: TextMessage): (r: int)
    ensures r == m.count
  {
    m.count
  }

  /** Below the 32-bit limit, each addIncrementCount shows in getCount as one more emission. */
  lemma GetCountSeesIncrement(m: TextMessage)
    requires MinInt32 <= GetCount(m) < MaxInt32
    ensures GetCount(AddIncrementCount(m)) == GetCount(m) + 1
  {
  }

  /** `n` successive calls of addIncrementCount. */
  function IncrementTimes(m: TextMessage, n: nat): TextMessage {
    if n == 0 then m else AddIncrementCount(IncrementTimes(m, n - 1))
  }

  /**
   * A message repeated n more times (short of the 32-bit limit) counts
   * 1 + n, and is otherwise the message it was created as.
   */
  lemma {:induction false} CountAfterRepeats(m: TextMessage, n: nat)
    requires m.count == 1
    requires n < MaxInt32
    ensures GetCount(IncrementTimes(m, n)) == 1 + n
    ensures SameExceptCount(IncrementTimes(m, n), m)
  {
    if n > 0 {
      CountAfterRepeats(m, n - 1);
    }
  }

  /** compareTo: `Long.compareTo` on the timestamps, which yields -1, 0 or 1. */
  function CompareTo(a: TextMessage, b: TextMessage): (r: int)
    ensures r == -1 || r == 0 || r == 1
    ensures r < 0 <==> a.timestamp < b.timestamp
    ensures r == 0 <==> a.timestamp == b.timestamp
  {
    if a.timestamp < b.timestamp then -1
    else if a.timestamp == b.timestamp then 0
    else 1
  }

  /** The ordering is antisymmetric, transitive, and blind to the repeat counter. */
  lemma CompareToIsOrdering(a: TextMessage, b: TextMessage, c: TextMessage)
    ensures CompareTo(a, b) == -CompareTo(b, a)
    ensures CompareTo(a, a) == 0
    ensures CompareTo(a, b) <= 0 && CompareTo(b, c) <= 0 ==> CompareTo(a, c) <= 0
    ensures CompareTo(a, b) < 0 && CompareTo(b, c) < 0 ==> CompareTo(a, c) < 0
    ensures CompareTo(AddIncrementCount(a), b) == CompareTo(a, b)
  {
  }
}

=== FILE: verification_functions.dfy ===
/**
 * VerificationFunctionsAlgo: the registry of multi-objective test functions
 * by label, and the outcome logic of its execution. The search domains are
 * modelled exactly; the floating-point formulas of the constraints and the
 * objectives are not: their results for the chosen function and inputs
 * arrive as an Evaluation.
 */
module VerificationFunctions {
  import opened Computation

  /** The enumeration, in declaration order. */
  datatype EAvailableFunctions = BinhKorn | ChakongHaimes | Ctp1 | Poloni

  /** `values()`: the enumeration constants in declaration order. */
  const AllFunctions: seq<EAvailableFunctions> := [BinhKorn, ChakongHaimes, Ctp1, Poloni]

  /** The label each constant is declared with. */
  function Label(f: EAvailableFunctions): string {
    match f
    case BinhKorn => "Binh and Korn"
    case ChakongHaimes => "Chakong and Haimes"
    case Ctp1 => "CTP1"
    case Poloni => "Poloni's two objective function"
  }

  /** No two values carry the same label. */
  predicate DistinctLabels<E>(values: seq<E>, labelOf: E -> string) {
    forall i, j :: 0 <= i < j < |values| ==> labelOf(values[i]) != labelOf(values[j])
  }

  predicate Labelled<E>(values: seq<E>, labelOf: E -> string, l: string) {
    exists i :: 0 <= i < |values| && labelOf(values[i]) == l
  }

  lemma LabelledSplit<E>(values: seq<E>, labelOf: E -> string)
    requires |values| > 0
    ensures var init := values[..|values| - 1];
            && (forall l :: Labelled(values, labelOf, l) <==>
                  Labelled(init, labelOf, l) || labelOf(values[|values| - 1]) == l)
            && (DistinctLabels(values, labelOf) <==>
                  DistinctLabels(init, labelOf) && !Labelled(init, labelOf, labelOf(values[|values| - 1])))
  {
    var init := values[..|values| - 1];
    assert forall i :: 0 <= i < |init| ==> init[i] == values[i];
  }

  /**
   * The static initialiser: put every value under its labelOf, in order,
   * refusing a label seen before with a ProgramException.
   */
  function Register<E(==)>(values: seq<E>, labelOf: E -> string): (r: Result<map<string, E>>)
    ensures r.Ok? <==> DistinctLabels(values, labelOf)
    ensures r.Err? ==> r.failure.ProgramException?
    ensures r.Ok? ==> forall l :: l in r.value <==> Labelled(values, labelOf, l)
    ensures r.Ok? ==> forall i :: 0 <= i < |values| ==>
              labelOf(values[i]) in r.value && r.value[labelOf(values[i])] == values[i]
    decreases |values|
  {
    if |values| == 0 then Ok(map[])
    else
      var v := values[|values| - 1];
      LabelledSplit(values, labelOf);
      match Register(values[..|values| - 1], labelOf)
      case Err(f) => Err(f)
      case Ok(m) =>
        if labelOf(v) in m then Err(ProgramException("label " + labelOf(v) + " was defined several times"))
        else
          assert forall i :: 0 <= i < |values| - 1 ==> values[..|values| - 1][i] == values[i];
          Ok(m[labelOf(v) := v])
  }

  lemma RegisterEnumeration()
    ensures Register(AllFunctions, Label).Ok?
    ensures var m := Register(AllFunctions, Label).value;
            && (forall f :: Label(f) in m && m[Label(f)] == f)
            && (forall l :: l in m ==> exists f :: Label(f) == l)
  {
    assert DistinctLabels(AllFunctions, Label);
    var m := Register(AllFunctions, Label).value;
    forall f ensures Label(f) in m && m[Label(f)] == f {
      var i := match f case BinhKorn => 0 case ChakongHaimes => 1 case Ctp1 => 2 case Poloni => 3;
      assert AllFunctions[i] == f;
    }
    forall l | l in m ensures exists f :: Label(f) == l {
      assert Labelled(AllFunctions, Label, l);
      var i :| 0 <= i < |AllFunctions| && Label(AllFunctions[i]) == l;
      assert Label(AllFunctions[i]) == l;
    }
  }

  /** The registry of the actual enumeration: its four labels are distinct, so registration succeeds. */
  function Registry(): (m: map<string, EAvailableFunctions>)
    ensures forall f :: Label(f) in m && m[Label(f)] == f
    ensures forall l :: l in m ==> exists f :: Label(f) == l
  {
    RegisterEnumeration();
    Register(AllFunctions, Label).value
  }

  /** Declaring a label twice is refused: registration raises a ProgramException. */
  lemma DuplicateLabelRefused<E>(values: seq<E>, labelOf: E -> string, i: nat, j: nat)
    requires i < j < |values| && labelOf(values[i]) == labelOf(values[j])
    ensures Register(values, labelOf).Err?
    ensures Register(values, labelOf).failure.ProgramException?
  {
  }

  /** parseFromLabel: the value declared with that label, or null for a label nobody declared. */
  function ParseFromLabel(l: string): (r: Option<EAvailableFunctions>)
    ensures r.Some? ==> Label(r.value) == l
    ensures r.None? <==> forall f :: Label(f) != l
  {
    Get(Registry(), l)
  }

  /** Every value is found again from its label. */
  lemma ParseLabelRoundTrip(f: EAvailableFunctions)
    ensures ParseFromLabel(Label(f)) == Some(f)
  {
  }

  /**
   * getLabelsAsList: every registered label exactly once. The source lists
   * the keys of a hash map, so its order is unspecified; this model lists
   * them in declaration order and states nothing about order.
   */
  function GetLabelsAsList(): (r: seq<string>)
    ensures forall i, j :: 0 <= i < j < |r| ==> r[i] != r[j]
    ensures forall l :: l in r <==> l in Registry()
  {
    LabelsListed();
    LabelList()
  }

  /** The declared labels, one per value in declaration order. */
  function LabelList(): seq<string> {
    [Label(BinhKorn), Label(ChakongHaimes), Label(Ctp1), Label(Poloni)]
  }

  /** The four labels have four different lengths, so no two values share a label. */
  lemma LabelInjective(f: EAvailableFunctions, g: EAvailableFunctions)
    ensures Label(f) == Label(g) ==> f == g
  {
    assert |Label(BinhKorn)| == 13 && |Label(ChakongHaimes)| == 18;
    assert |Label(Ctp1)| == 4 && |Label(Poloni)| == 31;
  }

  lemma LabelsListed()
    ensures forall i, j :: 0 <= i < j < |LabelList()| ==> LabelList()[i] != LabelList()[j]
    ensures forall l :: l in LabelList() <==> l in Registry()
  {
    var r := LabelList();
    forall i, j | 0 <= i < j < |r| ensures r[i] != r[j] {
      LabelInjective(AllFunctions[i], AllFunctions[j]);
    }
    forall l ensures l in r <==> l in Registry() {
      if l in Registry() {
        var f :| Label(f) == l;
        assert Label(f) in r by { match f case BinhKorn => case ChakongHaimes => case Ctp1 => case Poloni => }
      }
    }
  }

  // ---------------------------------------------------------------------
  // The anonymous execution
  // ---------------------------------------------------------------------

  /** The two published outputs. */
  datatype Output = F1 | F2

  /**
   * What the floating-point formulas give for the chosen function at (x, y):
   * whether the constraint is violated, and the two objective values.
   */
  datatype Evaluation = Evaluation(violatesConstraint: bool, f1: real, f2: real)

  /** The message the run leaves for the user, if any. */
  datatype Report = Silent | ConstraintViolated | OutOfSearchDomain | UnexpectedError

  /** The final state of the run and the outputs it set on its result. */
  datatype RunOutcome = RunOutcome(state: ComputationState, outputs: map<Output, real>, report: Report)

  /** `Math.PI`: the double nearest to pi, written out exactly. */
  const MathPi: real := 3.141592653589793115997963468544185161590576171875

  /** The search domain of each function: a closed box [xLow, xHigh] x [yLow, yHigh]. */
  datatype Box = Box(xLow: real, xHigh: real, yLow: real, yHigh: real)

  function SearchDomain(f: EAvailableFunctions): Box {
    match f
    case BinhKorn => Box(0.0, 5.0, 0.0, 3.0)
    case ChakongHaimes => Box(-20.0, 20.0, -20.0, 20.0)
    case Ctp1 => Box(0.0, 1.0, 0.0, 1.0)
    case Poloni => Box(-MathPi, MathPi, -MathPi, MathPi)
  }

  /** The point lies outside the function's search domain. */
  predicate OutsideDomain(f: EAvailableFunctions, x: real, y: real) {
    var b := SearchDomain(f);
    x < b.xLow || x > b.xHigh || y < b.yLow || y > b.yHigh
  }

  /**
   * The search-domain test as Java evaluates it, left to right with
   * short-circuit `||`: when x is already outside, a missing y is never
   * unboxed; otherwise a missing y raises (None).
   */
  function ViolatesSearchDomain(f: EAvailableFunctions, x: real, y: Option<real>): (r: Option<bool>)
    ensures y.Some? ==> r == Some(OutsideDomain(f, x, y.value))
    ensures y.None? ==> (r == Some(true) <==> x < SearchDomain(f).xLow || x > SearchDomain(f).xHigh)
    ensures y.None? ==> (r.None? <==> SearchDomain(f).xLow <= x <= SearchDomain(f).xHigh)
  {
    var b := SearchDomain(f);
    if x < b.xLow || x > b.xHigh then Some(true)
    else match y
      case None => None
      case Some(yv) => Some(yv < b.yLow || yv > b.yHigh)
  }

  /**
   * run: pick the function by the parameter's index into `values()`, then
   * fail on a constraint violation, else fail on a search-domain violation,
   * else set both outputs and finish OK. An index outside the enumeration
   * raises before the guarded block. Inside it, unboxing a missing input
   * raises a NullPointerException, caught as a failure: the constraints of
   * Binh-Korn, Chakong-Haimes and CTP1 read both inputs, while Poloni's
   * function has no constraint and its search-domain test reads x first and
   * y only when x is inside.
   */
  function Run(paramIndex: int, x: Option<real>, y: Option<real>,
               evaluate: (EAvailableFunctions, real, real) -> Evaluation): (r: Result<RunOutcome>)
    ensures r.Err? <==> !(0 <= paramIndex < |AllFunctions|)
    ensures r.Err? ==> r.failure == IndexOutOfBounds(paramIndex)
    ensures r.Ok? ==> r.value.state.IsFinished() && r.value.state != FinishedCancel
    ensures r.Ok? ==> (r.value.state == FinishedOk <==> r.value.outputs.Keys == {F1, F2})
    ensures r.Ok? && r.value.state == FinishedFailure ==> r.value.outputs == map[]
    ensures r.Ok? && x.None? ==> r.value == RunOutcome(FinishedFailure, map[], UnexpectedError)
    ensures r.Ok? && y.None? && AllFunctions[paramIndex] != Poloni ==>
              r.value == RunOutcome(FinishedFailure, map[], UnexpectedError)
    ensures r.Ok? && x.Some? && y.None? && AllFunctions[paramIndex] == Poloni ==>
              r.value == if x.value < -MathPi || x.value > MathPi
                         then RunOutcome(FinishedFailure, map[], OutOfSearchDomain)
                         else RunOutcome(FinishedFailure, map[], UnexpectedError)
    ensures r.Ok? && x.Some? && y.Some? ==>
              var f := AllFunctions[paramIndex];
              var e := evaluate(f, x.value, y.value);
              var violated := f != Poloni && e.violatesConstraint;
              && (violated ==> r.value == RunOutcome(FinishedFailure, map[], ConstraintViolated))
              && (!violated && OutsideDomain(f, x.value, y.value) ==>
                    r.value == RunOutcome(FinishedFailure, map[], OutOfSearchDomain))
              && (!violated && !OutsideDomain(f, x.value, y.value) ==>
                    r.value == RunOutcome(FinishedOk, map[F1 := e.f1, F2 := e.f2], Silent))
  {
    if !(0 <= paramIndex < |AllFunctions|) then Err(IndexOutOfBounds(paramIndex))
    else
      var f := AllFunctions[paramIndex];
      var unexpected := Ok(RunOutcome(FinishedFailure, map[], UnexpectedError));
      match x
      case None => unexpected
      case Some(xv) =>
        if f != Poloni && y.None? then unexpected
        else
          // Poloni's function has no constraint
          var violatesConstraint := if f == Poloni then false else evaluate(f, xv, y.value).violatesConstraint;
          match ViolatesSearchDomain(f, xv, y)
          case None => unexpected
          case Some(outside) =>
            if violatesConstraint then Ok(RunOutcome(FinishedFailure, map[], ConstraintViolated))
            else if outside then Ok(RunOutcome(FinishedFailure, map[], OutOfSearchDomain))
            else
              var e := evaluate(f, xv, y.value);
              Ok(RunOutcome(FinishedOk, map[F1 := e.f1, F2 := e.f2], Silent))
  }

  /** Poloni's function with x = 4 (beyond pi) and no y reports the search domain, not an unexpected error. */
  lemma PoloniMissingYBeyondDomain(evaluate: (EAvailableFunctions, real, real) -> Evaluation)
    ensures Run(3, Some(4.0), None, evaluate) == Ok(RunOutcome(FinishedFailure, map[], OutOfSearchDomain))
    ensures Run(3, Some(0.0), None, evaluate) == Ok(RunOutcome(FinishedFailure, map[], UnexpectedError))
  {
    assert AllFunctions[3] == Poloni;
  }

  /** kill: the execution ends cancelled, whatever its state. */
  function Kill(state: ComputationState): (r: ComputationState)
    ensures r == FinishedCancel
  {
    FinishedCancel
  }

  /** cancel: the same as kill. */
  function Cancel(state: ComputationState): (r: ComputationState)
    ensures r == Kill(state)
  {
    FinishedCancel
  }

  /** getTimeout: a fixed 200 ms budget for the watchdog. */
  function GetTimeout(): (r: int)
    ensures r == 200
  {
    200
  }
}
